=== FILE: README.md ===
# windSend utilities: colour stripping, image names, notification text

A Dafny model of three pure pieces of `windSend-rs/src/utils/utils.rs`:

- **`eliminate_color`**: removes ANSI SGR colour sequences (`ESC [ … m`,
  the control sequences of ECMA-48) from one log line, working on bytes.
  - Scanning happens only when the line holds the reset sequence `ESC [ 0 m`.
  - At each `ESC [` found, the scan looks for `m` at offsets 3 to 6.
  - If no `m` is in that window, the whole line is returned unchanged.
  - If the `ESC [` is the line's last two bytes, the loop never returns.
- **`has_img_ext`**: a file name is an image when the piece after its last
  `.`, lower-cased, is `jpg`, `jpeg`, `png`, `gif`, `bmp`, `webp` or `ico`.
- **The body of `inform`'s notification**: control characters are dropped.
  A text of 80 or more characters is then cut to 80 and followed by `...`.

Files:

- **`byte_search.dfy`** (`ByteSearch`): bytes and the leftmost-occurrence search.
- **`eliminate_color.dfy`** (`ColorStrip`): the stripper pass by pass.
  - `Iterate` is one pass of the outer loop.
  - `Run` is the loop with a bound on passes.
  - `Scan` is the loop run to completion, reporting `Diverges` where the loop
    never returns.
  - `EliminateColor` is the whole call.
- **`eliminate_color_spec.dfy`** (`ColorStripSpec`): a byte-at-a-time
  reference reading `Ref`, and the proof that the loop computes it.
- **`eliminate_color_facts.dfy`** (`ColorStripFacts`): what the reference
  reading means for callers.
- **`eliminate_color_utf8.dfy`** (`ColorStripUtf8`): well-formed UTF-8, as
  Table 3-7 of the Unicode Standard (section 3.9) defines it, and the proof
  that stripping never cuts a character in two.
- **`eliminate_color_examples.dfy`** (`ColorStripExamples`): the source's table
  test, and lines that show the fallback, the hang and a second pass.
- **`eliminate_color_loop.dfy`** (`ColorStripLoop`): the stripper as two
  nested `while` loops, proved equal to `EliminateColor`.
- **`eliminate_color_fixed.dfy`** (`ColorStripFixed`): the stripper with the
  window test corrected (see Findings).
- **`image_ext.dfy`** (`ImageExt`): `str::split`, its inverse, and the
  extension test.
- **`notify_body.dfy`** (`NotifyBody`): the control-character filter and the
  cut to 80 characters.

`Stripped(b)` is the freshly built buffer, and `Passthrough` is the line
itself. The model does not distinguish a borrowed line from a copied one.

## Model

| member | source | states |
|---|---|---|
| ByteSearch.Find | windSend-rs/src/utils/utils.rs:188 | The search result is an occurrence of the needle, no earlier position holds one, and there is no result exactly when the needle occurs nowhere |
| ByteSearch.FindFrom | windSend-rs/src/utils/utils.rs:193 | From a start position: the first occurrence at or after it, or none at or after it |
| ColorStrip.TermIndex | windSend-rs/src/utils/utils.rs:211-218 | Where `temp_index` stops. In the window it is on an `m`, and no `m` lies between offset 3 and it. Otherwise it is `end + 3` when that is past the end of the line, else the smaller of `len` and `end + 7` |
| ColorStrip.TermScan | windSend-rs/src/utils/utils.rs:212-218 | The inner loop resumed at any `temp_index`: the same facts from that index on |
| ColorStrip.Iterate | windSend-rs/src/utils/utils.rs:193-233 | One pass never moves the cursor backwards, leaves it inside the line when it continues, and never returns a non-returning result itself |
| ColorStrip.Scan | windSend-rs/src/utils/utils.rs:192-235 | A finished scan's buffer is no longer than what it had plus the unread rest of the line |
| ColorStrip.EliminateColor | windSend-rs/src/utils/utils.rs:186-238 | Without `ESC [ 0 m` the line is returned as it is; a returned buffer is never longer than the line |
| ColorStrip.Run | windSend-rs/src/utils/utils.rs:192-234 | A bounded run of the loop that returns never reports the non-returning outcome |
| ColorStrip.ScanHalts | windSend-rs/src/utils/utils.rs:192-234 | A scan that returns is reached by the loop within `len - start + 1` passes |
| ColorStrip.DivergingScanNeverHalts | windSend-rs/src/utils/utils.rs:211-229 | A scan reported as non-returning does not finish with any number of passes |
| ColorStrip.ScanDivergesIgnoresBuffer | windSend-rs/src/utils/utils.rs:195 | Whether the loop returns does not depend on the text already copied |
| ColorStrip.DivergesMeansNoReturn | windSend-rs/src/utils/utils.rs:186-238 | `Diverges` holds exactly when no number of passes finishes the call; otherwise `len + 1` passes give the same result |
| ColorStripSpec.TerminatorOffset | windSend-rs/src/utils/utils.rs:211-218 | The reference window: an offset from 3 to 6 inside the line that holds `m` |
| ColorStripSpec.PlainPrefix | windSend-rs/src/utils/utils.rs:193-195 | Bytes before the next `ESC [` are copied verbatim and in order |
| ColorStripSpec.PlainIsClean | windSend-rs/src/utils/utils.rs:230-232 | The rest of a line without `ESC [` is copied whole |
| ColorStripSpec.FindMarker | windSend-rs/src/utils/utils.rs:193-194 | The marker search from the cursor finds the first `ESC [` at or after it, or shows there is none |
| ColorStripSpec.RefAtMarker | windSend-rs/src/utils/utils.rs:211-229 | At a marker the reference reading stops on a trailing marker, fails on a window without `m`, and otherwise goes on after the `m` |
| ColorStripSpec.TerminatorAgrees | windSend-rs/src/utils/utils.rs:211-219 | The reference window test finds an `m` exactly when the inner loop stops inside the window, and then at the same offset |
| ColorStripSpec.RefPastTerminator | windSend-rs/src/utils/utils.rs:211-229 | A marker whose window holds an `m` is skipped through that `m` |
| ColorStripSpec.RefToMarker | windSend-rs/src/utils/utils.rs:193-195 | Reading up to the next marker only adds the plain bytes before it to the output |
| ColorStripSpec.ScanMatchesRef | windSend-rs/src/utils/utils.rs:192-235 | From any cursor the loop's result is the reference reading of the rest of the line |
| ColorStripSpec.ScanStep | windSend-rs/src/utils/utils.rs:193-229 | One pass either settles the result as the reference reading does, or moves loop and reading to the same later cursor |
| ColorStripSpec.ScanWithoutMarker | windSend-rs/src/utils/utils.rs:230-233 | With no marker left the loop returns the buffer plus the rest of the line |
| ColorStripSpec.RefWithoutMarker | windSend-rs/src/utils/utils.rs:230-233 | With no marker left the reference reading keeps the rest of the line |
| ColorStripSpec.ScanAdvances | windSend-rs/src/utils/utils.rs:211-229 | With an `m` in the window before the last byte, the loop continues after the `m` with the plain bytes copied |
| ColorStripSpec.RefAdvances | windSend-rs/src/utils/utils.rs:211-218 | With an `m` in the window, the reference reading continues after it with the plain bytes kept |
| ColorStripSpec.ScanSettles | windSend-rs/src/utils/utils.rs:219-229 | Otherwise the loop ends: never on a trailing marker, the line on a window without `m`, the buffer when the `m` is the last byte |
| ColorStripSpec.RefSettles | windSend-rs/src/utils/utils.rs:219-225 | The reference reading ends in the same three ways at such a marker |
| ColorStripSpec.EliminateColorMatchesRef | windSend-rs/src/utils/utils.rs:186-238 | The whole call is the line without a reset, and otherwise the reference reading of the line |
| ColorStripFacts.RefShift | windSend-rs/src/utils/utils.rs:193 | Reading from a cursor never looks at the bytes before it |
| ColorStripFacts.RefShiftStep | windSend-rs/src/utils/utils.rs:193-218 | Prepending bytes does not change the byte, the marker test or the terminator found at a later position |
| ColorStripFacts.ColorSeqTerminator | windSend-rs/src/utils/utils.rs:211-218 | The first `m` found in the window of a colour sequence is its last byte |
| ColorStripFacts.PlainBeforeSeq | windSend-rs/src/utils/utils.rs:193-195 | No `ESC [` starts inside marker-free text, even at its last byte, when a colour sequence follows |
| ColorStripFacts.SeqSkipped | windSend-rs/src/utils/utils.rs:211-229 | Reading resumes right after a colour sequence, wherever it sits in the line |
| ColorStripFacts.ColorSeqFront | windSend-rs/src/utils/utils.rs:193-218 | A colour sequence at the front of a line is dropped whole, and what is kept is what the rest of the line keeps |
| ColorStripFacts.ColorSeqRemoved | windSend-rs/src/utils/utils.rs:193-218 | `ESC [`, one unexamined byte, up to three non-`m` bytes and `m` are removed; the text before is kept and reading goes on after the `m` |
| ColorStripFacts.ColorSeqAtEnd | windSend-rs/src/utils/utils.rs:223-225 | A sequence whose `m` is the last byte ends the scan with nothing appended |
| ColorStripFacts.RefLength | windSend-rs/src/utils/utils.rs:189-235 | The cleaned text is no longer than what was read, and at least 4 bytes shorter once a marker was read |
| ColorStripFacts.MarkerAtEndIsTrailing | windSend-rs/src/utils/utils.rs:211-229 | The reading stops without a result only at an `ESC [` in the last two bytes |
| ColorStripFacts.TerminatorOffsetExtend | windSend-rs/src/utils/utils.rs:211-218 | Appending `ESC [` never puts an `m` into an earlier window |
| ColorStripFacts.TrailingMarker | windSend-rs/src/utils/utils.rs:211-229 | Appending `ESC [` turns a clean reading into a non-returning one and a failed one into a window failure |
| ColorStripFacts.ResetHasMarker | windSend-rs/src/utils/utils.rs:188 | A line with the reset holds a marker |
| ColorStripFacts.StrippedIff | windSend-rs/src/utils/utils.rs:223-235 | The cleaned text comes back exactly when the line holds a reset and reads cleanly |
| ColorStripFacts.FallbackIff | windSend-rs/src/utils/utils.rs:219-222 | The line comes back unchanged exactly when it holds no reset or the reading reaches a marker whose window holds no `m` (a marker inside a sequence skipped whole is never examined); the partial buffer is dropped |
| ColorStripFacts.DivergesIff | windSend-rs/src/utils/utils.rs:211-229 | The call never returns exactly when the line holds a reset, ends in `ESC [`, and reads cleanly before that |
| ColorStripFacts.StrippedIsShorter | windSend-rs/src/utils/utils.rs:188-235 | A returned cleaned text is at least 4 bytes shorter than the line |
| ColorStripFacts.NoMarkerUnchanged | windSend-rs/src/utils/utils.rs:237 | A line without `ESC [` comes back unchanged |
| ColorStripFacts.Segment | windSend-rs/src/utils/utils.rs:256-302 | Text, a sequence, text, the reset: both sequences go, the texts stay, and the rest is read on |
| ColorStripUtf8.RefSuffix | windSend-rs/src/utils/utils.rs:193 | Reading from the cursor is reading the rest of the line on its own |
| ColorStripUtf8.SeqSkippedAtFront | windSend-rs/src/utils/utils.rs:211-218 | At a marker with an `m` in its window, the byte the cursor resumes after is an ASCII `m`, and the reading goes on with the text after it |
| ColorStripUtf8.PlainAtFront | windSend-rs/src/utils/utils.rs:193-195 | Bytes before the next `ESC [` are copied to the buffer as they are, in front of what the rest gives |
| ColorStripUtf8.CharHasNoMarker | windSend-rs/src/utils/utils.rs:193 | No `ESC [` starts inside a multi-byte UTF-8 character, so the marker search never stops in the middle of one |
| ColorStripUtf8.AsciiCut | windSend-rs/src/utils/utils.rs:214 | Resuming after an `m` in well-formed UTF-8 resumes at the start of a character |
| ColorStripUtf8.KeepsPrepend | windSend-rs/src/utils/utils.rs:195 | Copying one whole character in front of well-formed kept text keeps it well-formed |
| ColorStripUtf8.CharKeptWhole | windSend-rs/src/utils/utils.rs:193-195 | A first character that does not open a marker is copied whole, so if the rest is kept well-formed the line is too |
| ColorStripUtf8.RefKeepsUtf8 | windSend-rs/src/utils/utils.rs:193-235 | Every text the reading keeps from well-formed UTF-8 is well-formed UTF-8 |
| ColorStripUtf8.StrippedKeepsUtf8 | windSend-rs/src/utils/utils.rs:186-238 | The buffer `eliminate_color` returns for a well-formed UTF-8 line is well-formed UTF-8, so callers may read it back as a string |
| ColorStripExamples.Wrapped | windSend-rs/src/utils/utils.rs:257-271 | A colour-wrapped word repeated `n` times strips to the word repeated `n` times |
| ColorStripExamples.WrappedStep | windSend-rs/src/utils/utils.rs:193-234 | A word wrapped in a colour sequence and a reset, in front of text that reads cleanly, leaves the word in front of that text |
| ColorStripExamples.RedWordCases | windSend-rs/src/utils/utils.rs:245-271 | Test cases 1 to 3 |
| ColorStripExamples.HelloRed | windSend-rs/src/utils/utils.rs:272-276 | Test case 4 |
| ColorStripExamples.HelloDim | windSend-rs/src/utils/utils.rs:277-281 | Test case 5 |
| ColorStripExamples.HelloWorld | windSend-rs/src/utils/utils.rs:282-296 | Test cases 6 to 8, parameters of one, three and four digits |
| ColorStripExamples.PlainCase | windSend-rs/src/utils/utils.rs:297-301 | Test case 9, a line without colour |
| ColorStripExamples.TrailingMarkerExample | windSend-rs/src/utils/utils.rs:211-229 | `ESC [ 0 m a b ESC [` never returns |
| ColorStripExamples.ResetThenPlain | windSend-rs/src/utils/utils.rs:193-233 | A reset followed by plain text leaves the text |
| ColorStripExamples.SecondPassDiffers | windSend-rs/src/utils/utils.rs:186-238 | Stripping twice can differ from stripping once |
| ColorStripExamples.BareMarkerFallback | windSend-rs/src/utils/utils.rs:211-222 | `ESC [ m` is not a sequence; with no `m` in its window the whole line comes back |
| ColorStripExamples.LongParameterFallback | windSend-rs/src/utils/utils.rs:211-222 | A five-digit parameter puts the `m` beyond offset 6, so the line comes back |
| ColorStripLoop.FindTerminator | windSend-rs/src/utils/utils.rs:211-218 | The inner loop stops at `temp_index`, on an `m` exactly when it is in the window |
| ColorStripLoop.EliminateColorLoop | windSend-rs/src/utils/utils.rs:186-238 | The two nested loops return what `EliminateColor` says |
| ColorStripFixed.IterateFixed | windSend-rs/src/utils/utils.rs:219 | With the window test `temp_index >= len`, every pass that continues moves the cursor forward |
| ColorStripFixed.RunFixedReturns | windSend-rs/src/utils/utils.rs:192-234 | The corrected loop returns within `len - start + 1` passes |
| ColorStripFixed.FixedAlwaysReturns | windSend-rs/src/utils/utils.rs:186-238 | The corrected call returns on every line |
| ColorStripFixed.IterateFixedAgrees | windSend-rs/src/utils/utils.rs:219-229 | The corrected pass differs from the source's only where the source would stay put |
| ColorStripFixed.RunFixedAgrees | windSend-rs/src/utils/utils.rs:192-234 | From any cursor the corrected loop returns what the source's returns, and the line where the source hangs |
| ColorStripFixed.FixedAgrees | windSend-rs/src/utils/utils.rs:186-238 | The corrected call agrees with the source wherever the source returns |
| ColorStripExamples.FixedTrailingMarker | windSend-rs/src/utils/utils.rs:219-229 | On `ESC [ 0 m a b ESC [` the source hangs and the correction returns the line |
| ImageExt.Split | windSend-rs/src/utils/utils.rs:369 | `split` yields at least one piece, and no piece holds the separator |
| ImageExt.JoinSplit | windSend-rs/src/utils/utils.rs:369 | Joining the pieces with the separator gives back the name |
| ImageExt.SplitPlain | windSend-rs/src/utils/utils.rs:369 | A name without a dot is one piece |
| ImageExt.SplitCons | windSend-rs/src/utils/utils.rs:369 | A dot ends the first piece |
| ImageExt.SplitJoin | windSend-rs/src/utils/utils.rs:369 | Dot-free pieces joined with dots split back into the same pieces |
| ImageExt.JoinLast | windSend-rs/src/utils/utils.rs:369 | The last piece is a suffix of the joined text, after a separator when there are several pieces |
| ImageExt.ExtensionIsLastPiece | windSend-rs/src/utils/utils.rs:369 | The extension is the dot-free suffix after the last dot, or the whole name |
| ImageExt.LowerChar | windSend-rs/src/utils/utils.rs:370 | Each upper-case ASCII letter becomes its own lower-case letter (code point plus 32), every other character stays |
| ImageExt.Lower | windSend-rs/src/utils/utils.rs:370 | Lower-casing keeps the length and maps each character |
| ImageExt.HasImgExtIff | windSend-rs/src/utils/utils.rs:368-374 | A name is an image exactly when its dot-free suffix after the last dot (or the whole name) lower-cases to one of the seven extensions |
| ImageExt.LowerIdempotent | windSend-rs/src/utils/utils.rs:370 | Lower-casing an already lower-cased text changes nothing |
| ImageExt.LowerSuffix | windSend-rs/src/utils/utils.rs:369-370 | Lower-casing a name and then taking a suffix gives the same text as lower-casing the suffix |
| ImageExt.LowerKeepsDots | windSend-rs/src/utils/utils.rs:369-370 | A text has a dot exactly when its lower-cased form has one |
| ImageExt.ExtensionOfLower | windSend-rs/src/utils/utils.rs:369-370 | Splitting at the last dot commutes with lower-casing |
| ImageExt.HasImgExtIgnoresCase | windSend-rs/src/utils/utils.rs:368-374 | The classifier gives the same answer for a name and its lower-cased form |
| ImageExt.NoDotExample | windSend-rs/src/utils/utils.rs:368-374 | `"PNG"` is an image |
| ImageExt.TrailingDotExample | windSend-rs/src/utils/utils.rs:368-374 | `"a.png."` is not an image |
| ImageExt.UpperCaseExample | windSend-rs/src/utils/utils.rs:370-371 | `"a.Jpeg"` is an image |
| ImageExt.LastPieceExample | windSend-rs/src/utils/utils.rs:369-372 | `"png.zip"` is not an image |
| NotifyBody.Filter | windSend-rs/src/utils/utils.rs:345-352 | The kept text holds no control character and is no longer than the content |
| NotifyBody.FilterAppend | windSend-rs/src/utils/utils.rs:345-352 | Filtering works piece by piece |
| NotifyBody.FilterKeepsPrintable | windSend-rs/src/utils/utils.rs:345-352 | Text without control characters passes unchanged |
| NotifyBody.FilterCounts | windSend-rs/src/utils/utils.rs:348-351 | Every non-control character is kept as often as it occurs, and every control character is dropped |
| NotifyBody.BodyShape | windSend-rs/src/utils/utils.rs:344-357 | The body holds no control character and has at most 83 characters |
| NotifyBody.BodyCut | windSend-rs/src/utils/utils.rs:353-356 | Under 80 kept characters the body is the kept text. From 80 on it is the first 80 and `...`, so exactly 80 also gets the dots |
| NotifyBody.BodyIdempotent | windSend-rs/src/utils/utils.rs:344-357 | Building a body from a body changes nothing |

## Left out

- `StartHelper` (windSend-rs/src/utils/utils.rs:6-166) is left out: it writes files, looks up the home directory and holds platform-specific code.
- `utf8_to_gbk` (:168-173) is left out: it calls a foreign encoder.
- `get_desktop_path` (:176-183) is left out: it checks the file system.
- `open_url` (:315-340) is left out: it spawns a process.
- `get_system_lang` (:377-387) is left out: it reads the environment.
- The desktop notification that `inform` shows (:358-365) is left out. Only the body text it builds is modelled.
- The `println!` warnings (:220, :227) are left out.
- The `Cow` borrowed/owned distinction is left out. `Passthrough` stands for the line, whether borrowed or copied.
- `subslice::bmh::find` is not part of this model. It is modelled by its result only: the leftmost occurrence.
- The `start > line.len()` guard (:226-229) is proved unreachable, since the cursor only moves to one past an `m` inside the line. `Iterate` keeps the branch; `EliminateColorLoop` has `assert false` there.
- A call that never returns is the outcome `Diverges`. `DivergesMeansNoReturn` ties it to the fuel-bounded loop `Run`.
- ImageExt.Lower: keeps the length of the text, where Unicode `to_lowercase` can change it. The only character whose lower case is longer is U+0130, which lowers to `i` followed by a combining dot. The classifier's answer is unaffected: the dot stays in the text, so no extension can come of it (see `LowerChar` below).
- ImageExt.LowerChar: lower-cases ASCII only, where the source uses Unicode `to_lowercase`. The classifier's answer is unaffected. The only non-ASCII characters whose lower case contains an ASCII letter are U+212A (Kelvin sign, to `k`) and U+0130 (to `i` plus a combining dot). Neither can produce one of the seven extensions: no extension has a `k`, and the combining dot stays in the text. Every other non-ASCII character stays non-ASCII, and no extension contains one.
- Idempotence of `eliminate_color` is not claimed, because it does not hold: `SecondPassDiffers` shows `ESC ESC [ 0 m [ 0 m X` stripping to `ESC [ 0 m X` and then to `X`.

## Findings

| source | as written | input that shows it | evidently intended | confidence | as-written member | corrected member |
|---|---|---|---|---|---|---|
| windSend-rs/src/utils/utils.rs:219 | The fallback test is `temp_index == line.len()`. For an `ESC [` in the last two bytes the inner loop never runs and `temp_index` is `len + 1`, so neither exit fires and `start` is unchanged. The next pass finds the same marker and takes the same exits, so the call never returns. Each such pass appends the bytes between the cursor and the marker (`ab` in the example) to the buffer, so the process grows it until allocation fails; when the marker sits at the cursor, as in `ESC [ 0 m ESC [`, it spins without growing. | `ESC [ 0 m a b ESC [` (any line with a reset that reads cleanly up to a final `ESC [`) | An incomplete sequence at the end is treated like any marker without `m`: test `temp_index >= line.len()` and return the line | not executed; follows from the loop's exits, proved for every line | ColorStripFacts.DivergesIff | ColorStripFixed.FixedAgrees |

The as-written behaviour is what the rest of the model describes: `EliminateColor` returns `Diverges` on such lines, and `TrailingMarkerExample` exhibits one. The corrected loop `ColorStripFixed` differs only on those lines, where it returns the line. `FixedAlwaysReturns` proves it returns on every input, and `FixedTrailingMarker` contrasts the two on the example.

=== FILE: byte_search.dfy ===
/**
  Bytes and the substring search the colour stripper relies on.

  The stripper searches with a Boyer-Moore-Horspool routine; only its result
  matters here: the leftmost position at which the needle occurs, or nothing.
 */
module ByteSearch {

  type byte = bv8

  datatype Option<+T> = None | Some(value: T)

  /** `needle` occurs in `hay` starting at position `i`. */
  predicate OccursAt(hay: seq<byte>, needle: seq<byte>, i: int)
  {
    0 <= i && i + |needle| <= |hay| && hay[i..i + |needle|] == needle
  }

  /** `needle` occurs somewhere in `hay`. */
  predicate Contains(hay: seq<byte>, needle: seq<byte>)
  {
    exists i :: 0 <= i <= |hay| && OccursAt(hay, needle, i)
  }

  /** Leftmost occurrence of `needle` in `hay` at or after position `from`. */
  function FindFrom(hay: seq<byte>, needle: seq<byte>, from: nat): (r: Option<nat>)
    ensures r.Some? ==> from <= r.value && OccursAt(hay, needle, r.value)
    ensures r.Some? ==> forall j :: from <= j < r.value ==> !OccursAt(hay, needle, j)
    ensures r.None? ==> forall j :: from <= j ==> !OccursAt(hay, needle, j)
    decreases |hay| - from
  {
    if from + |needle| > |hay| then None
    else if hay[from..from + |needle|] == needle then Some(from)
    else FindFrom(hay, needle, from + 1)
  }

  /** Leftmost occurrence of `needle` in `hay`, as the stripper's search returns it. */
  function Find(hay: seq<byte>, needle: seq<byte>): (r: Option<nat>)
    ensures r.Some? ==> OccursAt(hay, needle, r.value)
    ensures r.Some? ==> forall j :: 0 <= j < r.value ==> !OccursAt(hay, needle, j)
    ensures r.None? <==> !Contains(hay, needle)
  {
    FindFrom(hay, needle, 0)
  }
}

=== FILE: eliminate_color.dfy ===
/**
  The colour stripper `eliminate_color` (windSend-rs/src/utils/utils.rs).

  It removes ANSI SGR colour sequences, `ESC [ <parameters> m`, from one log
  line, working on the line's bytes. The loop of the source is modelled one
  iteration at a time (`Iterate`), as a fuel-bounded execution (`Run`) and as
  a terminating scanner (`Scan`) that reports `Diverges` where the source's
  loop never returns.
 */
module ColorStrip {
  import opened ByteSearch

  /** ESC, the first byte of every escape sequence. */
  const ESC: byte := 0x1B
  /** The ASCII letter `m` that ends an SGR sequence. */
  const TERMINATOR: byte := 0x6D
  /** `[`, the second byte of a control sequence introducer. */
  const LBRACKET: byte := 0x5B

  /** `ESC [`, the two bytes that introduce a control sequence. */
  const Marker: seq<byte> := [ESC, LBRACKET]
  /** `ESC [ 0 m`, the reset sequence whose presence switches scanning on. */
  const Reset: seq<byte> := [ESC, LBRACKET, 0x30, TERMINATOR]

  /** The terminator is looked for at offsets FIRST_OFFSET..LAST_OFFSET from the marker. */
  const FIRST_OFFSET: nat := 3
  const LAST_OFFSET: nat := 6

  /**
    What a call returns. `Passthrough` is the line itself (borrowed, or copied
    on a fallback path); `Stripped` is the freshly built buffer; `Diverges`
    stands for a call that never returns.
   */
  datatype Outcome = Passthrough | Stripped(buf: seq<byte>) | Diverges

  function Min(a: int, b: int): int
  {
    if a <= b then a else b
  }

  /** The terminator search `temp_index` starts at offset FIRST_OFFSET
      and runs while it is inside the line and at most LAST_OFFSET past `end`. */
  predicate InWindow(line: seq<byte>, end: nat, t: nat)
  {
    t < |line| && t <= end + LAST_OFFSET
  }

  /** The inner `while` loop, continued from `temp_index == t`: the value
      `temp_index` holds when the loop stops. */
  function TermScan(line: seq<byte>, end: nat, t: nat): (r: nat)
    requires t <= end + LAST_OFFSET + 1
    ensures t <= r <= end + LAST_OFFSET + 1
    ensures InWindow(line, end, r) ==> line[r] == TERMINATOR
    ensures forall k :: t <= k < r && k < |line| ==> line[k] != TERMINATOR
    ensures !InWindow(line, end, r) ==>
              r == (if t > |line| then t else Min(|line|, end + LAST_OFFSET + 1))
    decreases end + LAST_OFFSET + 1 - t
  {
    if InWindow(line, end, t) then
      if line[t] == TERMINATOR then t else TermScan(line, end, t + 1)
    else t
  }

  /** `temp_index` after the inner loop for a marker found at `end`. */
  function TermIndex(line: seq<byte>, end: nat): (r: nat)
    ensures end + FIRST_OFFSET <= r <= end + LAST_OFFSET + 1
    ensures InWindow(line, end, r) ==> line[r] == TERMINATOR
    ensures forall k :: end + FIRST_OFFSET <= k < r && k < |line| ==> line[k] != TERMINATOR
    ensures !InWindow(line, end, r) ==>
              r == (if end + FIRST_OFFSET > |line| then end + FIRST_OFFSET
                    else Min(|line|, end + LAST_OFFSET + 1))
  {
    TermScan(line, end, end + FIRST_OFFSET)
  }

  /** The state the outer loop reaches after one pass of its body. */
  datatype Step = Continue(start: nat, buf: seq<byte>) | Done(outcome: Outcome)

  /**
    One pass of the outer `loop`, from cursor `start` with output `buf` so far:
    search for the next marker, copy the plain bytes before it, look for the
    terminator, and take the same exits as the source in the same order.
   */
  function Iterate(line: seq<byte>, start: nat, buf: seq<byte>): (r: Step)
    requires start <= |line|
    ensures r.Continue? ==> start <= r.start < |line|
    ensures r.Continue? && r.start > start ==> |r.buf| < |buf| + r.start - start
    ensures r.Done? ==> !r.outcome.Diverges?
    ensures r.Done? && r.outcome.Stripped? ==> |r.outcome.buf| <= |buf| + |line| - start
  {
    match Find(line[start..], Marker)
    case None => Done(Stripped(buf + line[start..]))
    case Some(index) =>
      var end := start + index;
      var buf' := buf + line[start..end];
      var t := TermIndex(line, end);
      var next := if InWindow(line, end, t) then t + 1 else start;
      if t == |line| || t > end + LAST_OFFSET then Done(Passthrough)
      else if next == |line| then Done(Stripped(buf'))
      else if next > |line| then Done(Passthrough)
      else Continue(next, buf')
  }

  /** At most `fuel` passes of the outer loop; `None` when the fuel runs out. */
  function Run(line: seq<byte>, start: nat, buf: seq<byte>, fuel: nat): (r: Option<Outcome>)
    requires start <= |line|
    ensures r.Some? ==> !r.value.Diverges?
    decreases fuel
  {
    if fuel == 0 then None
    else match Iterate(line, start, buf)
      case Done(o) => Some(o)
      case Continue(next, buf') => Run(line, next, buf', fuel - 1)
  }

  /**
    The outer loop run to completion. A pass that leaves the cursor where it
    was finds the same marker again and takes the same exits, because no exit
    test reads the buffer, so the call never returns: `Diverges`. Each such
    pass may still append the bytes between the cursor and the marker to the
    buffer, so the process either spins or grows the buffer until allocation
    fails; no result is ever returned.
   */
  function Scan(line: seq<byte>, start: nat, buf: seq<byte>): (r: Outcome)
    requires start <= |line|
    ensures r.Stripped? ==> |r.buf| <= |buf| + |line| - start
    decreases |line| - start
  {
    match Iterate(line, start, buf)
    case Done(o) => o
    case Continue(next, buf') =>
      if next == start then Diverges else Scan(line, next, buf')
  }

  /** `eliminate_color`: scanning happens only when the line holds a reset sequence. */
  function EliminateColor(line: seq<byte>): (r: Outcome)
    ensures !Contains(line, Reset) ==> r == Passthrough
    ensures r.Stripped? ==> |r.buf| <= |line|
  {
    if Find(line, Reset).Some? then Scan(line, 0, []) else Passthrough
  }

  /** The whole call with at most `fuel` passes of the outer loop. */
  function Execute(line: seq<byte>, fuel: nat): Option<Outcome>
  {
    if Find(line, Reset).Some? then Run(line, 0, [], fuel) else Some(Passthrough)
  }

  /** Whether a pass continues, and where, does not depend on the buffer. */
  lemma IterateIgnoresBuffer(line: seq<byte>, start: nat, b1: seq<byte>, b2: seq<byte>)
    requires start <= |line|
    ensures Iterate(line, start, b1).Continue? == Iterate(line, start, b2).Continue?
    ensures Iterate(line, start, b1).Continue? ==>
              Iterate(line, start, b1).start == Iterate(line, start, b2).start
  {
  }

  /** Termination of the scan does not depend on the buffer either. */
  lemma {:induction false} ScanDivergesIgnoresBuffer(line: seq<byte>, start: nat, b1: seq<byte>, b2: seq<byte>)
    requires start <= |line|
    requires Scan(line, start, b1) == Diverges
    ensures Scan(line, start, b2) == Diverges
    decreases |line| - start
  {
    IterateIgnoresBuffer(line, start, b1, b2);
    match Iterate(line, start, b1)
    case Continue(next, buf1) =>
      var buf2 := Iterate(line, start, b2).buf;
      if next != start {
        ScanDivergesIgnoresBuffer(line, next, buf1, buf2);
      }
  }

  /** A scan that returns is reached by the loop within `|line| - start + 1` passes. */
  lemma {:induction false} ScanHalts(line: seq<byte>, start: nat, buf: seq<byte>, fuel: nat)
    requires start <= |line|
    requires Scan(line, start, buf) != Diverges
    requires fuel > |line| - start
    ensures Run(line, start, buf, fuel) == Some(Scan(line, start, buf))
    decreases |line| - start
  {
    match Iterate(line, start, buf)
    case Done(o) =>
    case Continue(next, buf') =>
      ScanHalts(line, next, buf', fuel - 1);
  }

  /** A scan reported as `Diverges` does not finish with any amount of fuel. */
  lemma {:induction false} DivergingScanNeverHalts(line: seq<byte>, start: nat, buf: seq<byte>, fuel: nat)
    requires start <= |line|
    requires Scan(line, start, buf) == Diverges
    ensures Run(line, start, buf, fuel) == None
    decreases fuel
  {
    if fuel > 0 {
      match Iterate(line, start, buf)
      case Continue(next, buf') =>
        if next == start {
          ScanDivergesIgnoresBuffer(line, start, buf, buf');
        }
        DivergingScanNeverHalts(line, next, buf', fuel - 1);
    }
  }

  /** `Diverges` means exactly that the source's loop never returns; otherwise
      it returns what `EliminateColor` says after at most `|line| + 1` passes. */
  lemma DivergesMeansNoReturn(line: seq<byte>)
    ensures EliminateColor(line) == Diverges <==> forall fuel: nat :: Execute(line, fuel) == None
    ensures EliminateColor(line) != Diverges ==> Execute(line, |line| + 1) == Some(EliminateColor(line))
  {
    if EliminateColor(line) == Diverges {
      forall fuel: nat ensures Execute(line, fuel) == None {
        DivergingScanNeverHalts(line, 0, [], fuel);
      }
    } else if Find(line, Reset).Some? {
      ScanHalts(line, 0, [], |line| + 1);
      assert Execute(line, |line| + 1).Some?;
    } else {
      assert Execute(line, 0).Some?;
    }
  }
}

=== FILE: eliminate_color_examples.dfy ===
/**
  The table test of `eliminate_color` (windSend-rs/src/utils/utils.rs), and
  lines that show its fallback, its non-returning case and that a second
  pass can change the result again. Text is given as its UTF-8 bytes.
 */
module ColorStripExamples {
  import opened ByteSearch
  import opened ColorStrip
  import opened ColorStripSpec
  import opened ColorStripFacts
  import opened ColorStripFixed

  /** `ESC [ 3 1 m`, `ESC [ 2 m`, `ESC [ 1 0 1 m` and `ESC [ 1 0 0 1 m`. */
  const Red: seq<byte> := [0x1B, 0x5B, 0x33, 0x31, 0x6D]
  const Dim: seq<byte> := [0x1B, 0x5B, 0x32, 0x6D]
  const Param101: seq<byte> := [0x1B, 0x5B, 0x31, 0x30, 0x31, 0x6D]
  const Param1001: seq<byte> := [0x1B, 0x5B, 0x31, 0x30, 0x30, 0x31, 0x6D]

  /** " 红色 " */
  const RedWord: seq<byte> := [0x20, 0xE7, 0xBA, 0xA2, 0xE8, 0x89, 0xB2, 0x20]
  /** "你好" */
  const Hello: seq<byte> := [0xE4, 0xBD, 0xA0, 0xE5, 0xA5, 0xBD]
  /** " 不知道啥色 " */
  const UnknownWord: seq<byte> :=
    [0x20, 0xE4, 0xB8, 0x8D, 0xE7, 0x9F, 0xA5, 0xE9, 0x81, 0x93, 0xE5, 0x95, 0xA5, 0xE8, 0x89, 0xB2, 0x20]
  /** " 世界！！！" */
  const World: seq<byte> :=
    [0x20, 0xE4, 0xB8, 0x96, 0xE7, 0x95, 0x8C, 0xEF, 0xBC, 0x81, 0xEF, 0xBC, 0x81, 0xEF, 0xBC, 0x81]
  /** "你好 红色，hello world" */
  const Greeting: seq<byte> :=
    [0xE4, 0xBD, 0xA0, 0xE5, 0xA5, 0xBD, 0x20, 0xE7, 0xBA, 0xA2, 0xE8, 0x89, 0xB2, 0xEF, 0xBC, 0x8C,
     0x68, 0x65, 0x6C, 0x6C, 0x6F, 0x20, 0x77, 0x6F, 0x72, 0x6C, 0x64]

  lemma PlainWords()
    ensures NoMarkerIn([]) && NoMarkerIn(RedWord) && NoMarkerIn(Hello)
    ensures NoMarkerIn(UnknownWord) && NoMarkerIn(World) && NoMarkerIn(Greeting)
  {
  }

  lemma Sequences()
    ensures IsColorSeq(Red) && IsColorSeq(Dim) && IsColorSeq(Param101)
    ensures IsColorSeq(Param1001) && IsColorSeq(Reset)
  {
  }

  /** `n` copies of `s`, one after the other. */
  function Repeat(s: seq<byte>, n: nat): (r: seq<byte>)
    ensures |r| == n * |s|
  {
    if n == 0 then [] else s + Repeat(s, n - 1)
  }

  /** One wrapped word in front of a clean rest: the wrapper goes, the word
      stays. */
  lemma WrappedStep(q: seq<byte>, t: seq<byte>, rest: seq<byte>, u: seq<byte>)
    requires IsColorSeq(q) && NoMarkerIn(t)
    requires Ref(rest) == Clean(u)
    ensures Ref(q + t + Reset + rest) == Clean(t + u)
    ensures EliminateColor(q + t + Reset + rest) == Stripped(t + u)
  {
    assert NoMarkerIn([]);
    Segment([], q, t, rest);
    assert [] + q == q;
    assert [] + t == t;
  }

  /** A word wrapped in a colour sequence and a reset, repeated: every wrapper
      goes and the words are kept in order. */
  lemma {:induction false} Wrapped(q: seq<byte>, t: seq<byte>, n: nat)
    requires IsColorSeq(q) && NoMarkerIn(t)
    ensures Ref(Repeat(q + t + Reset, n)) == Clean(Repeat(t, n))
    ensures n > 0 ==> EliminateColor(Repeat(q + t + Reset, n)) == Stripped(Repeat(t, n))
  {
    if n == 0 {
      assert RefFrom([], 0) == Clean([]);
    } else {
      Wrapped(q, t, n - 1);
      WrappedStep(q, t, Repeat(q + t + Reset, n - 1), Repeat(t, n - 1));
    }
  }

  lemma RepeatSmall(s: seq<byte>)
    ensures Repeat(s, 1) == s
    ensures Repeat(s, 2) == s + s
    ensures Repeat(s, 3) == s + s + s
  {
    assert s + [] == s;
    assert s + (s + s) == s + s + s;
  }

  /** Test cases 1 to 3: the red word once, twice and three times. */
  lemma RedWordCases()
    ensures EliminateColor(Red + RedWord + Reset) == Stripped(RedWord)
    ensures EliminateColor((Red + RedWord + Reset) + (Red + RedWord + Reset))
              == Stripped(RedWord + RedWord)
    ensures EliminateColor((Red + RedWord + Reset) + (Red + RedWord + Reset) + (Red + RedWord + Reset))
              == Stripped(RedWord + RedWord + RedWord)
  {
    PlainWords();
    Sequences();
    Wrapped(Red, RedWord, 1);
    Wrapped(Red, RedWord, 2);
    Wrapped(Red, RedWord, 3);
    RepeatSmall(Red + RedWord + Reset);
    RepeatSmall(RedWord);
  }

  /** Test case 4: text before the colour is kept. */
  lemma HelloRed()
    ensures EliminateColor(Hello + Red + RedWord + Reset) == Stripped(Hello + RedWord)
  {
    PlainWords();
    Sequences();
    Segment(Hello, Red, RedWord, []);
    assert Hello + Red + RedWord + Reset + [] == Hello + Red + RedWord + Reset;
    assert Hello + RedWord + [] == Hello + RedWord;
  }

  /** Test case 5: a one-digit parameter that is not a colour. */
  lemma HelloDim()
    ensures EliminateColor(Hello + Dim + UnknownWord + Reset) == Stripped(Hello + UnknownWord)
  {
    PlainWords();
    Sequences();
    Segment(Hello, Dim, UnknownWord, []);
    assert Hello + Dim + UnknownWord + Reset + [] == Hello + Dim + UnknownWord + Reset;
    assert Hello + UnknownWord + [] == Hello + UnknownWord;
  }

  /** Test cases 6 to 8: text after the reset is kept, for parameters of one,
      three and four digits. */
  lemma HelloWorld(q: seq<byte>)
    requires q == Dim || q == Param101 || q == Param1001
    ensures EliminateColor(Hello + q + UnknownWord + Reset + World)
              == Stripped(Hello + UnknownWord + World)
  {
    PlainWords();
    Sequences();
    PlainIsClean(World, 0);
    Segment(Hello, q, UnknownWord, World);
  }

  /** Test case 9: no reset, so the line is returned as it is. */
  lemma PlainCase()
    ensures EliminateColor(Greeting) == Passthrough
  {
    PlainWords();
    NoMarkerUnchanged(Greeting);
  }

  /** `ESC [ 0 m a b ESC [`: the final marker is found again on every pass. */
  lemma TrailingMarkerExample()
    ensures EliminateColor(Reset + [0x61, 0x62] + Marker) == Diverges
  {
    var line := Reset + [0x61, 0x62] + Marker;
    var prefix := Reset + [0x61, 0x62];
    assert line[..|line| - 2] == prefix;
    assert line[|line| - 2..] == Marker;
    assert OccursAt(line, Reset, 0) by {
      assert line[0..4] == Reset;
    }
    ColorSeqAtEnd([], Reset);
    assert IsColorSeq(Reset);
    ColorSeqRemoved([], Reset, [0x61, 0x62]);
    assert [] + Reset + [0x61, 0x62] == prefix;
    DivergesIff(line);
  }

  /** A reset followed by plain text leaves the text. */
  lemma ResetThenPlain(t: seq<byte>)
    requires NoMarkerIn(t)
    ensures EliminateColor(Reset + t) == Stripped(t)
  {
    assert IsColorSeq(Reset);
    assert NoMarkerIn([]);
    ColorSeqRemoved([], Reset, t);
    assert [] + Reset + t == Reset + t;
    PlainIsClean(t, 0);
    assert t[0..] == t;
    assert (Reset + t)[0..4] == Reset;
    assert OccursAt(Reset + t, Reset, 0);
    StrippedIff(Reset + t, [] + t);
    assert [] + t == t;
  }

  /** `[ 0 m X`, the text left behind once a reset inside it is removed. */
  const Leftover: seq<byte> := [0x5B, 0x30, 0x6D, 0x58]

  /** The first pass leaves a reset behind. */
  lemma LeftoverIsReset()
    ensures [ESC] + Leftover == Reset + [0x58]
  {
  }

  /** A second pass can strip more: `ESC ESC [ 0 m [ 0 m X` becomes
      `ESC [ 0 m X`, which becomes `X`. */
  lemma SecondPassDiffers()
    ensures EliminateColor([ESC] + Reset + Leftover) == Stripped([ESC] + Leftover)
    ensures [ESC] + Leftover == Reset + [0x58]
    ensures EliminateColor([ESC] + Leftover) == Stripped([0x58])
  {
    var line := [ESC] + Reset + Leftover;
    assert IsColorSeq(Reset);
    assert NoMarkerIn([ESC]) && NoMarkerIn(Leftover) && NoMarkerIn([0x58]);
    ColorSeqRemoved([ESC], Reset, Leftover);
    PlainIsClean(Leftover, 0);
    assert Leftover[0..] == Leftover;
    assert line[1..5] == Reset;
    assert OccursAt(line, Reset, 1);
    StrippedIff(line, [ESC] + Leftover);
    LeftoverIsReset();
    ResetThenPlain([0x58]);
  }

  /** `ESC [ m` is not a sequence on its own: the window after it holds no `m`,
      so the whole line comes back although a reset was already removed. */
  lemma BareMarkerFallback()
    ensures EliminateColor(Reset + [ESC, 0x5B, 0x6D, 0x61, 0x62, 0x63, 0x64]) == Passthrough
  {
    var rest: seq<byte> := [ESC, 0x5B, 0x6D, 0x61, 0x62, 0x63, 0x64];
    var line := Reset + rest;
    assert IsColorSeq(Reset);
    ColorSeqRemoved([], Reset, rest);
    assert [] + Reset + rest == line;
    assert MarkerAt(rest, 0);
    assert TerminatorOffset(rest, 0) == None;
    assert Ref(rest) == BadWindow;
    assert line[0..4] == Reset;
    assert OccursAt(line, Reset, 0);
    FallbackIff(line);
  }

  /** A parameter of five digits puts the `m` past offset 6. */
  lemma LongParameterFallback()
    ensures EliminateColor(Reset + [ESC, 0x5B, 0x31, 0x32, 0x33, 0x34, 0x35, 0x6D]) == Passthrough
  {
    var rest: seq<byte> := [ESC, 0x5B, 0x31, 0x32, 0x33, 0x34, 0x35, 0x6D];
    var line := Reset + rest;
    assert IsColorSeq(Reset);
    ColorSeqRemoved([], Reset, rest);
    assert [] + Reset + rest == line;
    assert MarkerAt(rest, 0);
    assert TerminatorOffset(rest, 0) == None;
    assert Ref(rest) == BadWindow;
    assert line[0..4] == Reset;
    assert OccursAt(line, Reset, 0);
    FallbackIff(line);
  }

  /** `ESC [ 0 m a b ESC [`: the source never returns, the correction gives
      back the line. */
  lemma FixedTrailingMarker()
    ensures EliminateColor(Reset + [0x61, 0x62] + Marker) == Diverges
    ensures ExecuteFixed(Reset + [0x61, 0x62] + Marker, 9) == Some(Passthrough)
  {
    TrailingMarkerExample();
    FixedAgrees(Reset + [0x61, 0x62] + Marker);
  }
}

=== FILE: eliminate_color_facts.dfy ===
/**
  What `eliminate_color` promises its callers, read off the reference reading:
  which bytes form a colour sequence, when the line comes back unchanged, when
  the call never returns, and how long the cleaned text is.
 */
module ColorStripFacts {
  import opened ByteSearch
  import opened ColorStrip
  import opened ColorStripSpec

  /** Inside `b`, the bytes of `a + b` agree with those of `b`, and so do the
      marker and terminator tests. */
  lemma RefShiftStep(a: seq<byte>, b: seq<byte>, i: nat)
    requires i + 2 <= |b|
    ensures (a + b)[|a| + i] == b[i]
    ensures MarkerAt(a + b, |a| + i) == MarkerAt(b, i)
    ensures TerminatorOffset(a + b, |a| + i) == TerminatorOffset(b, i)
  {
    assert (a + b)[|a| + i..] == b[i..];
  }

  /** Reading `a + b` from inside `b` does not look back at `a`. */
  lemma {:induction false} RefShift(a: seq<byte>, b: seq<byte>, i: nat)
    requires i <= |b|
    ensures RefFrom(a + b, |a| + i) == RefFrom(b, i)
    decreases |b| - i
  {
    if |b| - i < 2 {
      assert (a + b)[|a| + i..] == b[i..];
    } else {
      RefShiftStep(a, b, i);
      if !MarkerAt(b, i) {
        RefShift(a, b, i + 1);
      } else if TerminatorOffset(b, i).Some? && i + 2 < |b| {
        RefShift(a, b, i + TerminatorOffset(b, i).value + 1);
      }
    }
  }

  /** The first `m` among offsets 3 to 6 of a colour sequence is its last byte. */
  lemma ColorSeqTerminator(s: seq<byte>, i: nat, q: seq<byte>)
    requires IsColorSeq(q)
    requires i + |q| <= |s| && s[i..i + |q|] == q
    ensures TerminatorOffset(s, i) == Some(|q| - 1)
  {
  }

  /** No marker starts inside plain text that a colour sequence follows. */
  lemma PlainBeforeSeq(p: seq<byte>, q: seq<byte>, rest: seq<byte>)
    requires NoMarkerIn(p)
    requires IsColorSeq(q)
    ensures forall j :: 0 <= j < |p| ==> !MarkerAt(p + q + rest, j)
  {
    var s := p + q + rest;
    forall j | 0 <= j < |p| ensures !MarkerAt(s, j) {
      if j + 1 < |p| {
        assert !MarkerAt(p, j);
      } else {
        assert s[j + 1] == q[0];
      }
    }
  }

  /** The reading skips a colour sequence whole, wherever it sits. */
  lemma SeqSkipped(s: seq<byte>, i: nat, q: seq<byte>)
    requires IsColorSeq(q)
    requires i + |q| <= |s| && s[i..i + |q|] == q
    ensures RefFrom(s, i) == RefFrom(s, i + |q|)
  {
    assert s[i] == q[0] && s[i + 1] == q[1];
    ColorSeqTerminator(s, i, q);
    RefPastTerminator(s, i, |q| - 1);
  }

  /** A colour sequence at the front of a line is dropped whole. */
  lemma ColorSeqFront(q: seq<byte>, rest: seq<byte>)
    requires IsColorSeq(q)
    ensures Ref(q + rest) == Ref(rest)
  {
    assert (q + rest)[0..|q|] == q;
    SeqSkipped(q + rest, 0, q);
    RefShift(q, rest, 0);
  }

  /**
    A colour sequence after plain text is dropped and the text before it is
    kept verbatim: the reading goes on with whatever follows the sequence.
   */
  lemma ColorSeqRemoved(p: seq<byte>, q: seq<byte>, rest: seq<byte>)
    requires NoMarkerIn(p)
    requires IsColorSeq(q)
    ensures Ref(p + q + rest) == Prepend(p, Ref(rest))
  {
    var s := p + q + rest;
    calc {
      Ref(s);
      { PlainBeforeSeq(p, q, rest); PlainPrefix(s, 0, |p|); assert s[0..|p|] == p; }
      Prepend(p, RefFrom(s, |p|));
      { assert s == p + (q + rest); RefShift(p, q + rest, 0); }
      Prepend(p, Ref(q + rest));
      { ColorSeqFront(q, rest); }
      Prepend(p, Ref(rest));
    }
  }

  /** A colour sequence whose `m` is the line's last byte ends the reading
      cleanly: nothing is appended after the text before it. */
  lemma ColorSeqAtEnd(p: seq<byte>, q: seq<byte>)
    requires NoMarkerIn(p)
    requires IsColorSeq(q)
    ensures Ref(p + q) == Clean(p)
  {
    ColorSeqRemoved(p, q, []);
    assert p + q + [] == p + q;
    assert p + [] == p;
  }

  /** The cleaned text is never longer than what was read, and at least four
      bytes shorter once a marker was read. */
  lemma {:induction false} RefLength(s: seq<byte>, i: nat)
    requires i <= |s|
    ensures RefFrom(s, i).Clean? ==> |RefFrom(s, i).out| <= |s| - i
    ensures RefFrom(s, i).Clean? && (exists j :: i <= j && MarkerAt(s, j)) ==>
              |RefFrom(s, i).out| + 4 <= |s| - i
    decreases |s| - i
  {
    if |s| - i >= 2 {
      if MarkerAt(s, i) {
        match TerminatorOffset(s, i)
        case None =>
        case Some(k) =>
          if i + 2 < |s| {
            RefLength(s, i + k + 1);
          }
      } else {
        RefLength(s, i + 1);
        if exists j :: i <= j && MarkerAt(s, j) {
          var j :| i <= j && MarkerAt(s, j);
          assert i + 1 <= j;
        }
      }
    } else {
      forall j | i <= j ensures !MarkerAt(s, j) {
      }
    }
  }

  /** A reading can only stop at a marker that is the last two bytes. */
  lemma {:induction false} MarkerAtEndIsTrailing(s: seq<byte>, i: nat)
    requires i <= |s|
    requires RefFrom(s, i) == MarkerAtEnd
    ensures |s| >= 2 && MarkerAt(s, |s| - 2)
    decreases |s| - i
  {
    if MarkerAt(s, i) {
      match TerminatorOffset(s, i)
      case None =>
      case Some(k) =>
        if i + 2 < |s| {
          MarkerAtEndIsTrailing(s, i + k + 1);
        }
    } else {
      MarkerAtEndIsTrailing(s, i + 1);
    }
  }

  /** The bytes `ESC [` appended to a text are never the `m` a window looks for. */
  lemma TerminatorOffsetExtend(p: seq<byte>, i: nat)
    requires i + 2 < |p|
    ensures TerminatorOffset(p + Marker, i) == TerminatorOffset(p, i)
  {
  }

  /**
    Appending a marker to a text: a reading that finished cleanly now stops at
    the trailing marker, and one that failed fails on a window.
   */
  lemma {:induction false} TrailingMarker(p: seq<byte>, i: nat)
    requires i <= |p|
    ensures RefFrom(p + Marker, i) ==
              if RefFrom(p, i).Clean? then MarkerAtEnd else BadWindow
    decreases |p| - i
  {
    var s := p + Marker;
    assert s[|p|] == ESC && s[|p| + 1] == LBRACKET;
    if |p| - i == 0 {
      assert MarkerAt(s, i);
    } else if |p| - i == 1 {
      assert !MarkerAt(s, i);
      assert MarkerAt(s, i + 1);
    } else {
      assert s[i] == p[i] && s[i + 1] == p[i + 1];
      if MarkerAt(p, i) {
        if i + 2 == |p| {
          assert s[i + 3] == LBRACKET;
          assert TerminatorOffset(s, i) == None;
        } else {
          TerminatorOffsetExtend(p, i);
          match TerminatorOffset(p, i)
          case None =>
          case Some(k) => TrailingMarker(p, i + k + 1);
        }
      } else {
        TrailingMarker(p, i + 1);
      }
    }
  }

  /** `ESC [ 0 m` somewhere in the line means a marker somewhere in the line. */
  lemma ResetHasMarker(line: seq<byte>)
    requires Contains(line, Reset)
    ensures exists j :: 0 <= j && MarkerAt(line, j)
  {
    var k :| 0 <= k <= |line| && OccursAt(line, Reset, k);
    assert line[k..k + 4][0] == line[k] && line[k..k + 4][1] == line[k + 1];
    assert MarkerAt(line, k);
  }

  /** The cleaned text is returned exactly when the line holds a reset and its
      reading finishes cleanly. */
  lemma StrippedIff(line: seq<byte>, o: seq<byte>)
    ensures EliminateColor(line) == Stripped(o) <==>
              Contains(line, Reset) && Ref(line) == Clean(o)
  {
    EliminateColorMatchesRef(line);
  }

  /** The line comes back unchanged exactly when it holds no reset or the
      reading reaches a marker whose window holds no `m`; the text built so
      far is dropped. A marker inside a sequence that is skipped whole is
      never examined. */
  lemma FallbackIff(line: seq<byte>)
    ensures EliminateColor(line) == Passthrough <==>
              !Contains(line, Reset) || Ref(line) == BadWindow
  {
    EliminateColorMatchesRef(line);
  }

  /** The call never returns exactly when the line holds a reset, ends with
      `ESC [`, and everything before that final marker reads cleanly. */
  lemma DivergesIff(line: seq<byte>)
    ensures EliminateColor(line) == Diverges <==>
              && Contains(line, Reset)
              && |line| >= 2
              && line[|line| - 2..] == Marker
              && Ref(line[..|line| - 2]).Clean?
  {
    EliminateColorMatchesRef(line);
    if Ref(line) == MarkerAtEnd {
      MarkerAtEndIsTrailing(line, 0);
    }
    if |line| >= 2 {
      var p := line[..|line| - 2];
      if line[|line| - 2..] == Marker {
        assert line == p + Marker;
        TrailingMarker(p, 0);
      }
    }
  }

  /** A returned cleaned text is at least four bytes shorter than the line:
      the reset, or a sequence covering it, is gone. */
  lemma StrippedIsShorter(line: seq<byte>)
    ensures EliminateColor(line).Stripped? ==> |EliminateColor(line).buf| + 4 <= |line|
  {
    EliminateColorMatchesRef(line);
    if EliminateColor(line).Stripped? {
      ResetHasMarker(line);
      RefLength(line, 0);
    }
  }

  /** A line without any `ESC [` comes back unchanged. */
  lemma NoMarkerUnchanged(line: seq<byte>)
    requires NoMarkerIn(line)
    ensures EliminateColor(line) == Passthrough
  {
    if Contains(line, Reset) {
      ResetHasMarker(line);
    }
  }

  /**
    The shape of the source's table tests: plain text, one colour sequence,
    plain text, the reset, then anything. Scanning is switched on, both
    sequences go, the plain text is kept, and the rest of the line is read on.
   */
  lemma Segment(p: seq<byte>, q: seq<byte>, t: seq<byte>, tail: seq<byte>)
    requires NoMarkerIn(p) && NoMarkerIn(t)
    requires IsColorSeq(q)
    ensures Ref(p + q + t + Reset + tail) == Prepend(p + t, Ref(tail))
    ensures EliminateColor(p + q + t + Reset + tail) == Interpret(p + t, Ref(tail))
  {
    var line := p + q + t + Reset + tail;
    assert line == p + q + (t + Reset + tail);
    assert IsColorSeq(Reset);
    ColorSeqRemoved(p, q, t + Reset + tail);
    ColorSeqRemoved(t, Reset, tail);
    PrependAssoc(p, t, Ref(tail));
    var k := |p + q + t|;
    assert line[k..k + |Reset|] == Reset;
    assert OccursAt(line, Reset, k);
    EliminateColorMatchesRef(line);
    InterpretPrepend([], p + t, Ref(tail));
    assert [] + (p + t) == p + t;
  }
}

=== FILE: eliminate_color_fixed.dfy ===
/**
  `eliminate_color` with its window test widened from `temp_index == len` to
  `temp_index >= len`. A marker in the last two bytes leaves `temp_index` at
  `len + 1`, which the source's test misses, so the source's loop keeps finding
  the same marker and never returns; with the wider test such a line falls back to the
  line itself, like any other marker without a terminator. Every other line is
  treated exactly as before.
 */
module ColorStripFixed {
  import opened ByteSearch
  import opened ColorStrip
  import opened ColorStripSpec

  /** One pass of the outer loop with the widened window test. */
  function IterateFixed(line: seq<byte>, start: nat, buf: seq<byte>): (r: Step)
    requires start <= |line|
    ensures r.Continue? ==> start < r.start < |line|
    ensures r.Done? ==> !r.outcome.Diverges?
  {
    match Find(line[start..], Marker)
    case None => Done(Stripped(buf + line[start..]))
    case Some(index) =>
      var end := start + index;
      var buf' := buf + line[start..end];
      var t := TermIndex(line, end);
      var next := if InWindow(line, end, t) then t + 1 else start;
      if t >= |line| || t > end + LAST_OFFSET then Done(Passthrough)
      else if next == |line| then Done(Stripped(buf'))
      else if next > |line| then Done(Passthrough)
      else Continue(next, buf')
  }

  /** At most `fuel` passes of the corrected loop. */
  function RunFixed(line: seq<byte>, start: nat, buf: seq<byte>, fuel: nat): (r: Option<Outcome>)
    requires start <= |line|
    ensures r.Some? ==> !r.value.Diverges?
    decreases fuel
  {
    if fuel == 0 then None
    else match IterateFixed(line, start, buf)
      case Done(o) => Some(o)
      case Continue(next, buf') => RunFixed(line, next, buf', fuel - 1)
  }

  /** Every pass moves the cursor forward, so the corrected loop returns
      within `|line| - start + 1` passes. */
  lemma {:induction false} RunFixedReturns(line: seq<byte>, start: nat, buf: seq<byte>, fuel: nat)
    requires start <= |line|
    requires fuel > |line| - start
    ensures RunFixed(line, start, buf, fuel).Some?
    decreases |line| - start
  {
    match IterateFixed(line, start, buf)
    case Done(_) =>
    case Continue(next, buf') => RunFixedReturns(line, next, buf', fuel - 1);
  }

  /** The corrected `eliminate_color` with at most `fuel` passes. */
  function ExecuteFixed(line: seq<byte>, fuel: nat): (r: Option<Outcome>)
    ensures r.Some? ==> !r.value.Diverges?
  {
    if Find(line, Reset).Some? then RunFixed(line, 0, [], fuel) else Some(Passthrough)
  }

  /** The corrected call returns on every line. */
  lemma FixedAlwaysReturns(line: seq<byte>)
    ensures ExecuteFixed(line, |line| + 1).Some?
  {
    if Find(line, Reset).Some? {
      RunFixedReturns(line, 0, [], |line| + 1);
    }
  }

  /** What the corrected call gives back where the source's call ends with
      `o`: the same outcome, or the line itself where the source never
      returns. */
  function Returned(o: Outcome): Outcome
  {
    if o == Diverges then Passthrough else o
  }

  /** The two loops take the same pass except at a marker in the last two
      bytes, where the source stays put and the correction falls back. */
  lemma IterateFixedAgrees(line: seq<byte>, start: nat, buf: seq<byte>)
    requires start <= |line|
    ensures match Iterate(line, start, buf)
            case Continue(next, buf') =>
              if next == start then IterateFixed(line, start, buf) == Done(Passthrough)
              else IterateFixed(line, start, buf) == Continue(next, buf')
            case Done(o) => IterateFixed(line, start, buf) == Done(o)
  {
  }

  /** The corrected loop from any cursor: where the source's loop returns it
      returns the same, and where the source's loop never returns it gives
      back the line. */
  lemma {:induction false} RunFixedAgrees(line: seq<byte>, start: nat, buf: seq<byte>, fuel: nat)
    requires start <= |line|
    requires fuel > |line| - start
    ensures RunFixed(line, start, buf, fuel) == Some(Returned(Scan(line, start, buf)))
    decreases |line| - start
  {
    IterateFixedAgrees(line, start, buf);
    var step := Iterate(line, start, buf);
    if step.Continue? && step.start != start {
      RunFixedAgrees(line, step.start, step.buf, fuel - 1);
    }
  }

  /** On every line the corrected call returns what the source returns, and
      the line itself where the source never returns. */
  lemma FixedAgrees(line: seq<byte>)
    ensures ExecuteFixed(line, |line| + 1) == Some(Returned(EliminateColor(line)))
  {
    if Find(line, Reset).Some? {
      calc {
        ExecuteFixed(line, |line| + 1);
        RunFixed(line, 0, [], |line| + 1);
        { RunFixedAgrees(line, 0, [], |line| + 1); }
        Some(Returned(Scan(line, 0, [])));
        Some(Returned(EliminateColor(line)));
      }
    } else {
      assert EliminateColor(line) == Passthrough;
    }
  }
}

=== FILE: eliminate_color_loop.dfy ===
/**
  `eliminate_color` written as the source writes it: an outer loop over a
  cursor, a marker search, and an inner loop looking for the terminator. The
  one place where the source never returns gives `Diverges` instead.
 */
module ColorStripLoop {
  import opened ByteSearch
  import opened ColorStrip
  import opened ColorStripSpec

  /** The inner `while` loop: `temp_index` when it stops, and whether it
      stopped on an `m` (which is when the source advances `start`). */
  method FindTerminator(line: seq<byte>, end: nat) returns (t: nat, found: bool)
    ensures t == TermIndex(line, end)
    ensures found <==> InWindow(line, end, t)
  {
    t := end + FIRST_OFFSET;
    found := false;
    while t < |line| && t <= end + LAST_OFFSET
      invariant end + FIRST_OFFSET <= t <= end + LAST_OFFSET + 1
      invariant TermScan(line, end, t) == TermIndex(line, end)
      decreases end + LAST_OFFSET + 1 - t
    {
      if line[t] == TERMINATOR {
        found := true;
        break;
      }
      t := t + 1;
    }
  }

  method EliminateColorLoop(line: seq<byte>) returns (o: Outcome)
    ensures o == EliminateColor(line)
  {
    if Find(line, Reset).None? {
      return Passthrough;
    }
    var buf: seq<byte> := [];
    var start: nat := 0;
    while true
      invariant start <= |line|
      invariant Scan(line, start, buf) == EliminateColor(line)
      decreases |line| - start
    {
      var found := Find(line[start..], Marker);
      if found.None? {
        ScanWithoutMarker(line, start, buf);
        return Stripped(buf + line[start..]);
      }
      var index := found.value;
      var end := start + index;
      var buf' := buf + line[start..end];
      FindMarker(line, start);
      var t, hit := FindTerminator(line, end);
      var next := if hit then t + 1 else start;
      if t == |line| || t > end + LAST_OFFSET {
        ScanSettles(line, start, buf, index, buf');
        return Passthrough;
      }
      if next == |line| {
        ScanSettles(line, start, buf, index, buf');
        return Stripped(buf');
      }
      if next > |line| {
        assert false;
      }
      if next == start {
        ScanSettles(line, start, buf, index, buf');
        return Diverges;
      }
      ScanAdvances(line, start, buf, index, next, buf');
      start, buf := next, buf';
    }
  }
}

=== FILE: eliminate_color_spec.dfy ===
/**
  A reference reading of `eliminate_color`, independent of its cursor-and-search
  loop: the line is read one byte at a time, and an `ESC [` is dropped together
  with everything up to the first `m` at offset 3, 4, 5 or 6 from the `ESC`.
  `EliminateColorMatchesRef` says the loop computes exactly this; the other
  lemmas read off what that means for callers.
 */
module ColorStripSpec {
  import opened ByteSearch
  import opened ColorStrip

  /** How the byte-at-a-time reading of a line ends. `Clean` carries the text
      with every colour sequence removed; `BadWindow` is a marker with no
      terminator in its window; `MarkerAtEnd` is a marker that is the line's
      last two bytes. */
  datatype Parse = Clean(out: seq<byte>) | BadWindow | MarkerAtEnd

  /** An `ESC [` starts at position `j` of `s`. */
  predicate MarkerAt(s: seq<byte>, j: int)
  {
    0 <= j && j + 1 < |s| && s[j] == ESC && s[j + 1] == LBRACKET
  }

  /** `s` holds no `ESC [` anywhere. */
  predicate NoMarkerIn(s: seq<byte>)
  {
    forall j :: 0 <= j < |s| ==> !MarkerAt(s, j)
  }

  /** Offset from `i` of the first `m` among offsets 3, 4, 5, 6, if any. */
  function TerminatorOffset(s: seq<byte>, i: nat): (r: Option<nat>)
    ensures r.Some? ==> FIRST_OFFSET <= r.value <= LAST_OFFSET && i + r.value < |s|
    ensures r.Some? ==> s[i + r.value] == TERMINATOR
  {
    if i + 3 < |s| && s[i + 3] == TERMINATOR then Some(3)
    else if i + 4 < |s| && s[i + 4] == TERMINATOR then Some(4)
    else if i + 5 < |s| && s[i + 5] == TERMINATOR then Some(5)
    else if i + 6 < |s| && s[i + 6] == TERMINATOR then Some(6)
    else None
  }

  /** Puts plain bytes `p` in front of whatever a parse keeps. */
  function Prepend(p: seq<byte>, r: Parse): Parse
  {
    match r
    case Clean(o) => Clean(p + o)
    case BadWindow => BadWindow
    case MarkerAtEnd => MarkerAtEnd
  }

  /** The reference reading of `s` from position `i`, one plain byte or one
      colour sequence at a time. */
  function RefFrom(s: seq<byte>, i: nat): Parse
    requires i <= |s|
    decreases |s| - i
  {
    if |s| - i < 2 then Clean(s[i..])
    else if MarkerAt(s, i) then
      if i + 2 == |s| then MarkerAtEnd
      else match TerminatorOffset(s, i)
        case None => BadWindow
        case Some(k) => RefFrom(s, i + k + 1)
    else Prepend([s[i]], RefFrom(s, i + 1))
  }

  /** The reference reading of a whole line. */
  function Ref(s: seq<byte>): Parse
  {
    RefFrom(s, 0)
  }

  /** What the scanning path of `eliminate_color` returns for a parse, after
      `buf` has already been produced. */
  function Interpret(buf: seq<byte>, r: Parse): Outcome
  {
    match r
    case Clean(o) => Stripped(buf + o)
    case BadWindow => Passthrough
    case MarkerAtEnd => Diverges
  }

  /** One SGR-like sequence as the stripper recognises it: `ESC [`, one byte
      that is never examined, at most three further bytes of any value other
      than `m`, then `m`. */
  predicate IsColorSeq(q: seq<byte>)
  {
    && 4 <= |q| <= 7
    && q[0] == ESC && q[1] == LBRACKET
    && q[|q| - 1] == TERMINATOR
    && forall j :: FIRST_OFFSET <= j < |q| - 1 ==> q[j] != TERMINATOR
  }

  lemma PrependAssoc(p: seq<byte>, q: seq<byte>, r: Parse)
    ensures Prepend(p, Prepend(q, r)) == Prepend(p + q, r)
    ensures Prepend([], r) == r
  {
  }

  lemma InterpretPrepend(buf: seq<byte>, p: seq<byte>, r: Parse)
    ensures Interpret(buf, Prepend(p, r)) == Interpret(buf + p, r)
  {
  }

  /** Bytes before the next marker are kept verbatim and in order. */
  lemma {:induction false} PlainPrefix(s: seq<byte>, i: nat, n: nat)
    requires i + n <= |s|
    requires forall j :: i <= j < i + n ==> !MarkerAt(s, j)
    ensures RefFrom(s, i) == Prepend(s[i..i + n], RefFrom(s, i + n))
    decreases n
  {
    if n == 0 {
      assert RefFrom(s, i) == Prepend(s[i..i + n], RefFrom(s, i + n)) by {
        PrependAssoc([], [], RefFrom(s, i));
        assert s[i..i] == [];
      }
    } else if |s| - i < 2 {
      assert RefFrom(s, i) == Prepend(s[i..i + n], RefFrom(s, i + n)) by {
        assert i + n == |s|;
        assert s[i..i + n] + [] == s[i..];
      }
    } else {
      assert RefFrom(s, i) == Prepend(s[i..i + n], RefFrom(s, i + n)) by {
        assert !MarkerAt(s, i);
        PlainPrefix(s, i + 1, n - 1);
        calc {
          RefFrom(s, i);
          Prepend([s[i]], RefFrom(s, i + 1));
          Prepend([s[i]], Prepend(s[i + 1..i + n], RefFrom(s, i + n)));
          { PrependAssoc([s[i]], s[i + 1..i + n], RefFrom(s, i + n)); }
          Prepend([s[i]] + s[i + 1..i + n], RefFrom(s, i + n));
          { assert [s[i]] + s[i + 1..i + n] == s[i..i + n]; }
          Prepend(s[i..i + n], RefFrom(s, i + n));
        }
      }
    }
  }

  /** Text with no `ESC [` reads as itself. */
  lemma PlainIsClean(s: seq<byte>, i: nat)
    requires i <= |s|
    requires forall j :: i <= j < |s| ==> !MarkerAt(s, j)
    ensures RefFrom(s, i) == Clean(s[i..])
  {
    PlainPrefix(s, i, |s| - i);
    assert s[i..|s|] == s[i..];
    assert s[|s|..] == [];
    assert s[i..] + [] == s[i..];
  }

  lemma MarkerOccurs(s: seq<byte>, j: int)
    ensures OccursAt(s, Marker, j) <==> MarkerAt(s, j)
  {
  }

  /** The source's marker search from the cursor, in terms of `MarkerAt`. */
  lemma FindMarker(line: seq<byte>, start: nat)
    requires start <= |line|
    ensures Find(line[start..], Marker).None? ==>
              forall j :: start <= j < |line| ==> !MarkerAt(line, j)
    ensures Find(line[start..], Marker).Some? ==>
              var end := start + Find(line[start..], Marker).value;
              && MarkerAt(line, end)
              && forall j :: start <= j < end ==> !MarkerAt(line, j)
  {
    var s := line[start..];
    forall j | start <= j < |line| && Find(s, Marker).None? ensures !MarkerAt(line, j) {
      MarkerOccurs(s, j - start);
      assert !MarkerAt(s, j - start);
    }
    if Find(s, Marker).Some? {
      var index := Find(s, Marker).value;
      MarkerOccurs(s, index);
      forall j | start <= j < start + index ensures !MarkerAt(line, j) {
        MarkerOccurs(s, j - start);
        assert !MarkerAt(s, j - start);
      }
    }
  }

  /** The reference reading's window test agrees with the inner loop of the source. */
  lemma TerminatorAgrees(line: seq<byte>, end: nat)
    requires end + FIRST_OFFSET <= |line|
    ensures TerminatorOffset(line, end).Some? <==> InWindow(line, end, TermIndex(line, end))
    ensures TerminatorOffset(line, end).Some? ==>
              TermIndex(line, end) == end + TerminatorOffset(line, end).value
  {
  }

  /** A marker with a terminator in its window is skipped up to and
      including the terminator. */
  lemma RefPastTerminator(s: seq<byte>, i: nat, k: nat)
    requires MarkerAt(s, i) && i + 2 < |s|
    requires TerminatorOffset(s, i) == Some(k)
    ensures RefFrom(s, i) == RefFrom(s, i + k + 1)
  {
  }

  /** The reference reading at a marker, in the source's terms. */
  lemma RefAtMarker(line: seq<byte>, end: nat)
    requires MarkerAt(line, end)
    ensures var t := TermIndex(line, end);
            RefFrom(line, end) ==
              if end + 2 == |line| then MarkerAtEnd
              else if !InWindow(line, end, t) then BadWindow
              else RefFrom(line, t + 1)
  {
    if end + 2 < |line| {
      TerminatorAgrees(line, end);
    }
  }

  /** The plain bytes between the cursor and the next marker go to the output. */
  lemma RefToMarker(line: seq<byte>, start: nat, buf: seq<byte>, index: nat)
    requires start + index <= |line|
    requires forall j :: start <= j < start + index ==> !MarkerAt(line, j)
    ensures Interpret(buf, RefFrom(line, start)) ==
              Interpret(buf + line[start..start + index], RefFrom(line, start + index))
  {
    PlainPrefix(line, start, index);
    InterpretPrepend(buf, line[start..start + index], RefFrom(line, start + index));
  }

  /** One pass of the loop at a marker found `index` bytes after the cursor. */
  lemma IterateAtMarker(line: seq<byte>, start: nat, buf: seq<byte>, index: nat)
    requires start <= |line|
    requires Find(line[start..], Marker) == Some(index)
    ensures var end := start + index;
            var buf' := buf + line[start..end];
            var t := TermIndex(line, end);
            Iterate(line, start, buf) ==
              if t == |line| || t > end + LAST_OFFSET then Done(Passthrough)
              else if t > |line| then Continue(start, buf')
              else if t + 1 == |line| then Done(Stripped(buf'))
              else Continue(t + 1, buf')
  {
  }

  /** How a pass ends at the marker at `end` when it does not move on to a
      later cursor, with `b` the output built so far. */
  function Settled(line: seq<byte>, end: nat, b: seq<byte>): Outcome
    requires end + 2 <= |line|
  {
    if end + 2 == |line| then Diverges
    else if !InWindow(line, end, TermIndex(line, end)) then Passthrough
    else Stripped(b)
  }

  /** The scanning loop from any cursor computes the reference reading of the
      rest of the line. */
  lemma {:induction false} ScanMatchesRef(line: seq<byte>, start: nat, buf: seq<byte>)
    requires start <= |line|
    ensures Scan(line, start, buf) == Interpret(buf, RefFrom(line, start))
    decreases |line| - start
  {
    var done, next, b := ScanStep(line, start, buf);
    if !done {
      ScanMatchesRef(line, next, b);
    }
  }

  /** One pass of the loop either settles the result or moves both readings
      to the same later cursor. The facts about the loop and about the reference
      reading come from separate lemmas and are only chained here. */
  lemma ScanStep(line: seq<byte>, start: nat, buf: seq<byte>)
    returns (done: bool, next: nat, b: seq<byte>)
    requires start <= |line|
    ensures done ==> Scan(line, start, buf) == Interpret(buf, RefFrom(line, start))
    ensures !done ==> start < next <= |line|
    ensures !done ==> Scan(line, start, buf) == Scan(line, next, b)
    ensures !done ==> Interpret(buf, RefFrom(line, start)) == Interpret(b, RefFrom(line, next))
  {
    FindMarker(line, start);
    match Find(line[start..], Marker)
    case None =>
      done, next, b := true, start, buf;
      ScanWithoutMarker(line, start, buf);
      RefWithoutMarker(line, start, buf);
    case Some(index) =>
      var end := start + index;
      b := buf + line[start..end];
      var t := TermIndex(line, end);
      if InWindow(line, end, t) && t + 1 < |line| {
        done, next := false, t + 1;
        ScanAdvances(line, start, buf, index, next, b);
        RefAdvances(line, start, buf, index, next, b);
      } else {
        done, next := true, start;
        ScanSettles(line, start, buf, index, b);
        RefSettles(line, start, buf, index, b);
      }
  }

  lemma ScanWithoutMarker(line: seq<byte>, start: nat, buf: seq<byte>)
    requires start <= |line|
    requires Find(line[start..], Marker).None?
    ensures Scan(line, start, buf) == Stripped(buf + line[start..])
  {
  }

  lemma RefWithoutMarker(line: seq<byte>, start: nat, buf: seq<byte>)
    requires start <= |line|
    requires forall j :: start <= j < |line| ==> !MarkerAt(line, j)
    ensures Interpret(buf, RefFrom(line, start)) == Stripped(buf + line[start..])
  {
    PlainIsClean(line, start);
  }

  lemma ScanAdvances(line: seq<byte>, start: nat, buf: seq<byte>, index: nat, next: nat, b: seq<byte>)
    requires start <= |line|
    requires Find(line[start..], Marker) == Some(index)
    requires next == TermIndex(line, start + index) + 1 && next < |line|
    requires InWindow(line, start + index, next - 1)
    requires b == buf + line[start..start + index]
    ensures Scan(line, start, buf) == Scan(line, next, b)
  {
    IterateAtMarker(line, start, buf, index);
  }

  lemma RefAdvances(line: seq<byte>, start: nat, buf: seq<byte>, index: nat, next: nat, b: seq<byte>)
    requires start + index <= |line|
    requires forall j :: start <= j < start + index ==> !MarkerAt(line, j)
    requires MarkerAt(line, start + index)
    requires next == TermIndex(line, start + index) + 1 && next < |line|
    requires InWindow(line, start + index, next - 1)
    requires b == buf + line[start..start + index]
    ensures Interpret(buf, RefFrom(line, start)) == Interpret(b, RefFrom(line, next))
  {
    RefToMarker(line, start, buf, index);
    RefAtMarker(line, start + index);
  }

  lemma ScanSettles(line: seq<byte>, start: nat, buf: seq<byte>, index: nat, b: seq<byte>)
    requires start <= |line|
    requires Find(line[start..], Marker) == Some(index)
    requires MarkerAt(line, start + index)
    requires var t := TermIndex(line, start + index);
             !(InWindow(line, start + index, t) && t + 1 < |line|)
    requires b == buf + line[start..start + index]
    ensures Scan(line, start, buf) == Settled(line, start + index, b)
  {
  }

  lemma RefSettles(line: seq<byte>, start: nat, buf: seq<byte>, index: nat, b: seq<byte>)
    requires start + index <= |line|
    requires forall j :: start <= j < start + index ==> !MarkerAt(line, j)
    requires MarkerAt(line, start + index)
    requires var t := TermIndex(line, start + index);
             !(InWindow(line, start + index, t) && t + 1 < |line|)
    requires b == buf + line[start..start + index]
    ensures Interpret(buf, RefFrom(line, start)) == Settled(line, start + index, b)
  {
    RefToMarker(line, start, buf, index);
    RefAtMarker(line, start + index);
    var t := TermIndex(line, start + index);
    if start + index + 2 < |line| && InWindow(line, start + index, t) {
      assert RefFrom(line, t + 1) == Clean([]);
      assert b + [] == b;
    }
  }

  /** Main theorem: `eliminate_color` is the identity unless the line holds
      `ESC [ 0 m`, and otherwise returns the reference reading of the whole line:
      the cleaned text, the line itself on a bad window, and no return on a
      trailing marker. */
  lemma EliminateColorMatchesRef(line: seq<byte>)
    ensures EliminateColor(line) ==
              if Contains(line, Reset) then Interpret([], Ref(line)) else Passthrough
  {
    ScanMatchesRef(line, 0, []);
  }
}

=== FILE: eliminate_color_utf8.dfy ===
/**
  `eliminate_color` never splits a UTF-8 character. Every removed run starts
  at an `ESC` and ends at an `m`, both one-byte characters, and a byte below
  0x80 is never part of a longer character in well-formed UTF-8. So a line
  that is well-formed UTF-8 comes back well-formed.
 */
module ColorStripUtf8 {
  import opened ByteSearch
  import opened ColorStrip
  import opened ColorStripSpec
  import opened ColorStripFacts

  /** A continuation byte, `10xxxxxx`. */
  predicate IsCont(b: byte)
  {
    0x80 <= b <= 0xBF
  }

  /** The second byte allowed after `lead`, as Table 3-7 of the Unicode
      Standard (section 3.9) narrows it to rule out overlong forms,
      surrogates and code points above U+10FFFF. */
  predicate SecondOk(lead: byte, b: byte)
  {
    if lead == 0xE0 then 0xA0 <= b <= 0xBF
    else if lead == 0xED then 0x80 <= b <= 0x9F
    else if lead == 0xF0 then 0x90 <= b <= 0xBF
    else if lead == 0xF4 then 0x80 <= b <= 0x8F
    else IsCont(b)
  }

  /** The length of the well-formed character at the front of `s`, or 0 when
      `s` does not start with one. */
  function CharLen(s: seq<byte>): (n: nat)
    ensures n <= |s|
    ensures n == 1 <==> |s| > 0 && s[0] < 0x80
    ensures n > 1 ==> 0xC2 <= s[0]
  {
    if |s| == 0 then 0
    else if s[0] < 0x80 then 1
    else if 0xC2 <= s[0] <= 0xDF then
      if |s| >= 2 && IsCont(s[1]) then 2 else 0
    else if 0xE0 <= s[0] <= 0xEF then
      if |s| >= 3 && SecondOk(s[0], s[1]) && IsCont(s[2]) then 3 else 0
    else if 0xF0 <= s[0] <= 0xF4 then
      if |s| >= 4 && SecondOk(s[0], s[1]) && IsCont(s[2]) && IsCont(s[3]) then 4 else 0
    else 0
  }

  /** `s` is a sequence of well-formed UTF-8 characters. */
  predicate ValidUtf8(s: seq<byte>)
    decreases |s|
  {
    |s| == 0 || (CharLen(s) > 0 && ValidUtf8(s[CharLen(s)..]))
  }

  /** Every byte of a character after its first is a continuation byte. */
  lemma CharTail(s: seq<byte>)
    ensures forall j :: 1 <= j < CharLen(s) ==> IsCont(s[j])
  {
  }

  /** A character is read from its own bytes only. */
  lemma CharLenPrefix(c: seq<byte>, t: seq<byte>)
    requires CharLen(c) > 0
    ensures CharLen(c + t) == CharLen(c)
  {
    assert (c + t)[0] == c[0];
  }

  /** The bytes of the first character make a character on their own. */
  lemma CharLenTake(s: seq<byte>)
    requires CharLen(s) > 0
    ensures CharLen(s[..CharLen(s)]) == CharLen(s)
  {
    assert s[..CharLen(s)][0] == s[0];
  }

  /** One character in front of well-formed text is well-formed text. */
  lemma ValidCons(c: seq<byte>, t: seq<byte>)
    requires |c| > 0 && CharLen(c) == |c|
    requires ValidUtf8(t)
    ensures ValidUtf8(c + t)
  {
    CharLenPrefix(c, t);
    assert (c + t)[|c|..] == t;
  }

  /** In well-formed text a byte below 0x80 is a character of its own, so the
      text after it is well-formed too. */
  lemma {:induction false} AsciiCut(t: seq<byte>, j: nat)
    requires ValidUtf8(t)
    requires j < |t| && t[j] < 0x80
    ensures ValidUtf8(t[j + 1..])
    decreases |t|
  {
    var n := CharLen(t);
    if j >= n {
      AsciiCut(t[n..], j - n);
      assert t[n..][j - n + 1..] == t[j + 1..];
    }
  }

  /** A reading that keeps text keeps well-formed text. */
  predicate KeepsUtf8(r: Parse)
  {
    r.Clean? ==> ValidUtf8(r.out)
  }

  /** A line cut short right after a marker, or whose marker has no
      terminator in reach, gives no stripped text at all. */
  lemma UnfinishedNotClean(t: seq<byte>)
    requires MarkerAt(t, 0)
    requires !(2 < |t| && TerminatorOffset(t, 0).Some?)
    ensures !Ref(t).Clean?
  {
  }

  /** Reading from position `m` is reading the text from `m` on. */
  lemma RefSuffix(t: seq<byte>, m: nat)
    requires m <= |t|
    ensures RefFrom(t, m) == Ref(t[m..])
  {
    assert t == t[..m] + t[m..];
    RefShift(t[..m], t[m..], 0);
  }

  /** The reading skips a colour sequence at the front of a line and goes on
      with the text after its terminator. */
  lemma SeqSkippedAtFront(t: seq<byte>, k: nat)
    requires MarkerAt(t, 0) && 2 < |t|
    requires TerminatorOffset(t, 0) == Some(k)
    ensures k < |t| && t[k] < 0x80
    ensures Ref(t) == Ref(t[k + 1..])
  {
    calc {
      Ref(t);
      { RefPastTerminator(t, 0, k); }
      RefFrom(t, k + 1);
      { RefSuffix(t, k + 1); }
      Ref(t[k + 1..]);
    }
  }

  /** The reading keeps `n` plain bytes at the front of a line in front of
      whatever it keeps of the rest. */
  lemma PlainAtFront(t: seq<byte>, n: nat)
    requires n <= |t|
    requires forall j :: 0 <= j < n ==> !MarkerAt(t, j)
    ensures Ref(t) == Prepend(t[..n], Ref(t[n..]))
  {
    PlainPrefix(t, 0, n);
    RefSuffix(t, n);
    assert t[0..n] == t[..n];
  }

  /** A character that is not `ESC` holds no marker: its other bytes are
      continuation bytes, which are never `ESC`. */
  lemma CharHasNoMarker(t: seq<byte>)
    requires 0 < CharLen(t) && !MarkerAt(t, 0)
    ensures forall j :: 0 <= j < CharLen(t) ==> !MarkerAt(t, j)
  {
    CharTail(t);
  }

  /** Keeping one more whole character in front keeps the text well-formed. */
  lemma KeepsPrepend(c: seq<byte>, r: Parse)
    requires |c| > 0 && CharLen(c) == |c|
    requires KeepsUtf8(r)
    ensures KeepsUtf8(Prepend(c, r))
  {
    if r.Clean? {
      ValidCons(c, r.out);
    }
  }

  /** A first character that does not open a colour sequence is kept whole,
      in front of what the reading keeps of the rest. */
  lemma CharKeptWhole(t: seq<byte>)
    requires 0 < CharLen(t) && !MarkerAt(t, 0)
    ensures KeepsUtf8(Ref(t[CharLen(t)..])) ==> KeepsUtf8(Ref(t))
  {
    var n := CharLen(t);
    CharHasNoMarker(t);
    PlainAtFront(t, n);
    CharLenTake(t);
    if KeepsUtf8(Ref(t[n..])) {
      KeepsPrepend(t[..n], Ref(t[n..]));
    }
  }

  /** The reference reading of well-formed text keeps whole characters only,
      so what it keeps is well-formed. */
  lemma {:induction false} RefKeepsUtf8(t: seq<byte>)
    requires ValidUtf8(t)
    ensures KeepsUtf8(Ref(t))
    decreases |t|
  {
    if |t| >= 2 {
      if MarkerAt(t, 0) {
        if 2 < |t| && TerminatorOffset(t, 0).Some? {
          var k := TerminatorOffset(t, 0).value;
          SeqSkippedAtFront(t, k);
          AsciiCut(t, k);
          RefKeepsUtf8(t[k + 1..]);
        } else {
          UnfinishedNotClean(t);
        }
      } else {
        CharKeptWhole(t);
        RefKeepsUtf8(t[CharLen(t)..]);
      }
    }
  }

  /** Stripping a well-formed UTF-8 line gives well-formed UTF-8: text is
      cut only between characters. */
  lemma StrippedKeepsUtf8(line: seq<byte>)
    requires ValidUtf8(line)
    ensures EliminateColor(line).Stripped? ==> ValidUtf8(EliminateColor(line).buf)
  {
    EliminateColorMatchesRef(line);
    RefKeepsUtf8(line);
    if Ref(line).Clean? {
      assert [] + Ref(line).out == Ref(line).out;
    }
  }
}

=== FILE: image_ext.dfy ===
/**
  `has_img_ext` (windSend-rs/src/utils/utils.rs): a file name is an image when
  the text after its last `.`, lower-cased, is a known image extension.
 */
module ImageExt {

  /** The extensions the classifier accepts, in lower case. */
  const ImageExts: set<string> := {"jpg", "jpeg", "png", "gif", "bmp", "webp", "ico"}

  const DOT: char := '.'

  /** `s` split at every `sep`, as `str::split` with a one-character pattern
      does: one more piece than there are separators, possibly empty. */
  function Split(s: string, sep: char): (r: seq<string>)
    ensures |r| >= 1
    ensures forall k :: 0 <= k < |r| ==> sep !in r[k]
  {
    if |s| == 0 then [""]
    else
      var tail := Split(s[1..], sep);
      if s[0] == sep then [""] + tail
      else [[s[0]] + tail[0]] + tail[1..]
  }

  /** The pieces put back together with `sep` between them. */
  function Join(parts: seq<string>, sep: char): string
    requires |parts| >= 1
  {
    if |parts| == 1 then parts[0] else parts[0] + [sep] + Join(parts[1..], sep)
  }

  /** Splitting loses nothing: joining the pieces gives back the text. */
  lemma {:induction false} JoinSplit(s: string, sep: char)
    ensures Join(Split(s, sep), sep) == s
  {
    if |s| > 0 {
      var tail := Split(s[1..], sep);
      JoinSplit(s[1..], sep);
      if s[0] == sep {
        assert Split(s, sep)[1..] == tail;
        assert [s[0]] + s[1..] == s;
      } else {
        var r := Split(s, sep);
        if |tail| == 1 {
          assert r == [[s[0]] + tail[0]];
          assert [s[0]] + s[1..] == s;
        } else {
          assert r[1..] == tail[1..];
          assert Join(tail, sep) == tail[0] + [sep] + Join(tail[1..], sep);
          assert [s[0]] + s[1..] == s;
        }
      }
    }
  }

  /** A text without the separator is a single piece. */
  lemma {:induction false} SplitPlain(p: string, sep: char)
    requires sep !in p
    ensures Split(p, sep) == [p]
  {
    if |p| > 0 {
      SplitPlain(p[1..], sep);
      assert [p[0]] + p[1..] == p;
    }
  }

  /** A separator-free text followed by the separator is the first piece. */
  lemma {:induction false} SplitCons(p: string, sep: char, rest: string)
    requires sep !in p
    ensures Split(p + [sep] + rest, sep) == [p] + Split(rest, sep)
  {
    var s := p + [sep] + rest;
    if |p| == 0 {
      assert s[1..] == rest;
    } else {
      assert s[1..] == p[1..] + [sep] + rest;
      SplitCons(p[1..], sep, rest);
      assert [p[0]] + p[1..] == p;
    }
  }

  /** Pieces without separators come back unchanged from a join and a split. */
  lemma {:induction false} SplitJoin(parts: seq<string>, sep: char)
    requires |parts| >= 1
    requires forall k :: 0 <= k < |parts| ==> sep !in parts[k]
    ensures Split(Join(parts, sep), sep) == parts
  {
    if |parts| == 1 {
      SplitPlain(parts[0], sep);
    } else {
      SplitJoin(parts[1..], sep);
      SplitCons(parts[0], sep, Join(parts[1..], sep));
      assert [parts[0]] + parts[1..] == parts;
    }
  }

  /** `name.split(".").last()`: the piece after the last dot, or the whole
      name when there is none. `split` always yields a piece, so the source's
      `unwrap_or("")` never applies. */
  function Extension(name: string): string
  {
    var parts := Split(name, DOT);
    parts[|parts| - 1]
  }

  /** ASCII upper-case letters to lower case; everything else unchanged. */
  function LowerChar(c: char): (r: char)
    ensures 'A' <= c <= 'Z' ==> 'a' <= r <= 'z' && r as int == c as int + 32
    ensures !('A' <= c <= 'Z') ==> r == c
  {
    if 'A' <= c <= 'Z' then (c as int + 32) as char else c
  }

  function Lower(s: string): (r: string)
    ensures |r| == |s|
    ensures forall i :: 0 <= i < |s| ==> r[i] == LowerChar(s[i])
  {
    if |s| == 0 then [] else [LowerChar(s[0])] + Lower(s[1..])
  }

  /** `has_img_ext`. */
  predicate HasImgExt(name: string)
  {
    Lower(Extension(name)) in ImageExts
  }

  /** The extension is the suffix of the name after its last dot. */
  lemma {:induction false} ExtensionIsLastPiece(name: string)
    ensures var e := Extension(name);
            && |e| <= |name|
            && e == name[|name| - |e|..]
            && DOT !in e
            && (|e| < |name| ==> name[|name| - |e| - 1] == DOT)
  {
    var parts := Split(name, DOT);
    JoinSplit(name, DOT);
    JoinLast(parts, DOT);
  }

  /** The last piece of a join is its suffix, after a separator if there are
      several pieces. */
  lemma {:induction false} JoinLast(parts: seq<string>, sep: char)
    requires |parts| >= 1
    ensures var s := Join(parts, sep);
            var e := parts[|parts| - 1];
            && |e| <= |s|
            && s[|s| - |e|..] == e
            && (|parts| > 1 ==> |e| < |s| && s[|s| - |e| - 1] == sep)
  {
    if |parts| > 1 {
      JoinLast(parts[1..], sep);
      var rest := Join(parts[1..], sep);
      var s := Join(parts, sep);
      assert s == (parts[0] + [sep]) + rest;
      assert parts[1..][|parts| - 2] == parts[|parts| - 1];
      var e := parts[|parts| - 1];
      assert s[|s| - |rest|..] == rest;
      if |parts| == 2 {
        assert rest == e;
      }
    }
  }

  /** The classifier without splitting: some suffix of the name that starts
      the name or follows a dot, and holds no dot, is an image extension. */
  lemma HasImgExtIff(name: string)
    ensures HasImgExt(name) <==>
              exists i :: 0 <= i <= |name|
                && (i == 0 || name[i - 1] == DOT)
                && DOT !in name[i..]
                && Lower(name[i..]) in ImageExts
  {
    ExtensionIsLastPiece(name);
    var e := Extension(name);
    var j := |name| - |e|;
    assert name[j..] == e;
    forall i | 0 <= i <= |name| && (i == 0 || name[i - 1] == DOT) && DOT !in name[i..]
      ensures i == j
    {
    }
  }

  /** Every known extension has three or four letters, none starting with `z`. */
  lemma ImageExtsShape()
    ensures forall e :: e in ImageExts ==> 3 <= |e| <= 4 && e[0] != 'z'
  {
  }

  /** Lower-casing twice is lower-casing once. */
  lemma LowerIdempotent(s: string)
    ensures Lower(Lower(s)) == Lower(s)
  {
  }

  /** Lower-casing works on any suffix separately. */
  lemma LowerSuffix(s: string, i: nat)
    requires i <= |s|
    ensures Lower(s)[i..] == Lower(s[i..])
  {
  }

  /** Lower-casing neither adds nor removes dots. */
  lemma LowerKeepsDots(s: string)
    ensures DOT in Lower(s) <==> DOT in s
  {
    if DOT in Lower(s) {
      var k :| 0 <= k < |s| && Lower(s)[k] == DOT;
      assert s[k] == DOT;
    }
    if DOT in s {
      var k :| 0 <= k < |s| && s[k] == DOT;
      assert Lower(s)[k] == DOT;
    }
  }

  /** The extension of the lower-cased name is the lower-cased extension. */
  lemma ExtensionOfLower(name: string)
    ensures Extension(Lower(name)) == Lower(Extension(name))
  {
    var low := Lower(name);
    ExtensionIsLastPiece(name);
    ExtensionIsLastPiece(low);
    var e, e' := Extension(name), Extension(low);
    var j, j' := |name| - |e|, |name| - |e'|;
    LowerSuffix(name, j);
    LowerSuffix(name, j');
    LowerKeepsDots(name[j'..]);
    LowerKeepsDots(name[j..]);
    assert name[j..] == e;
    assert low[j'..] == e';
  }

  /** The classifier ignores case: lower-casing the name first changes
      nothing. */
  lemma HasImgExtIgnoresCase(name: string)
    ensures HasImgExt(Lower(name)) <==> HasImgExt(name)
  {
    ExtensionOfLower(name);
    LowerIdempotent(Extension(name));
  }

  /** A name without a dot is its own extension, so `"PNG"` is an image. */
  lemma NoDotExample()
    ensures HasImgExt("PNG")
  {
    SplitPlain("PNG", DOT);
    assert Lower("PNG") == "png";
  }

  /** A trailing dot leaves an empty extension, so `"a.png."` is not an image. */
  lemma TrailingDotExample()
    ensures !HasImgExt("a.png.")
  {
    SplitCons("a", DOT, "png.");
    SplitCons("png", DOT, "");
    assert "png" + [DOT] + "" == "png.";
    assert "a" + [DOT] + "png." == "a.png.";
    assert Extension("a.png.") == "";
    ImageExtsShape();
  }

  /** Case does not matter. */
  lemma UpperCaseExample()
    ensures HasImgExt("a.Jpeg")
  {
    SplitCons("a", DOT, "Jpeg");
    SplitPlain("Jpeg", DOT);
    assert "a" + [DOT] + "Jpeg" == "a.Jpeg";
    assert Lower("Jpeg") == "jpeg";
  }

  /** Only the last piece counts. */
  lemma LastPieceExample()
    ensures !HasImgExt("png.zip")
  {
    SplitCons("png", DOT, "zip");
    SplitPlain("zip", DOT);
    assert "png" + [DOT] + "zip" == "png.zip";
    assert Lower("zip") == "zip";
    ImageExtsShape();
  }
}

=== FILE: notify_body.dfy ===
/**
  The text of a desktop notification as `inform`
  (windSend-rs/src/utils/utils.rs) builds it: control characters are dropped,
  and a text of SHOW_LEN or more characters is cut to SHOW_LEN and marked
  with three dots.
 */
module NotifyBody {

  /** At most this many characters of the content are shown. */
  const SHOW_LEN: nat := 80
  /** What marks a cut text. */
  const ELLIPSIS: string := "..."

  /** `char::is_control`: the general category Cc, that is U+0000 to U+001F
      and U+007F to U+009F. */
  predicate IsControl(c: char)
  {
    c as int <= 0x1F || 0x7F <= c as int <= 0x9F
  }

  /** The text holds no control character. */
  predicate Printable(s: string)
  {
    forall i :: 0 <= i < |s| ==> !IsControl(s[i])
  }

  /** The content with every control character removed, the rest in order. */
  function Filter(s: string): (r: string)
    ensures |r| <= |s|
    ensures Printable(r)
  {
    if |s| == 0 then []
    else if IsControl(s[0]) then Filter(s[1..])
    else [s[0]] + Filter(s[1..])
  }

  /** The body shown in the notification. */
  function Body(content: string): string
  {
    var kept := Filter(content);
    if |kept| >= SHOW_LEN then kept[..SHOW_LEN] + ELLIPSIS else kept
  }

  /** Filtering works piece by piece. */
  lemma {:induction false} FilterAppend(a: string, b: string)
    ensures Filter(a + b) == Filter(a) + Filter(b)
  {
    if |a| > 0 {
      assert (a + b)[1..] == a[1..] + b;
      FilterAppend(a[1..], b);
    } else {
      assert a + b == b;
    }
  }

  /** Printable text passes the filter unchanged, so filtering twice is
      filtering once. */
  lemma {:induction false} FilterKeepsPrintable(s: string)
    requires Printable(s)
    ensures Filter(s) == s
  {
    if |s| > 0 {
      FilterKeepsPrintable(s[1..]);
      assert [s[0]] + s[1..] == s;
    }
  }

  /** Exactly the characters that are not control characters survive, each
      as often as in the content. */
  lemma {:induction false} FilterCounts(s: string, c: char)
    ensures multiset(Filter(s))[c] == if IsControl(c) then 0 else multiset(s)[c]
  {
    if |s| > 0 {
      FilterCounts(s[1..], c);
      assert s == [s[0]] + s[1..];
      assert multiset(s) == multiset([s[0]]) + multiset(s[1..]);
      if !IsControl(s[0]) {
        assert multiset(Filter(s)) == multiset([s[0]]) + multiset(Filter(s[1..]));
      }
    }
  }

  /** The body holds no control character and is at most SHOW_LEN + 3 long. */
  lemma BodyShape(content: string)
    ensures Printable(Body(content))
    ensures |Body(content)| <= SHOW_LEN + |ELLIPSIS|
  {
  }

  /** A short text is shown whole; a long one, including one of exactly
      SHOW_LEN characters, shows its first SHOW_LEN characters and the dots. */
  lemma BodyCut(content: string)
    ensures |Filter(content)| < SHOW_LEN ==> Body(content) == Filter(content)
    ensures |Filter(content)| >= SHOW_LEN ==>
              && |Body(content)| == SHOW_LEN + |ELLIPSIS|
              && Body(content)[..SHOW_LEN] == Filter(content)[..SHOW_LEN]
              && Body(content)[SHOW_LEN..] == ELLIPSIS
    ensures |Filter(content)| == SHOW_LEN ==> Body(content) == Filter(content) + ELLIPSIS
  {
  }

  /** Building the body from a body changes nothing: it is already printable,
      and a cut body keeps the same first SHOW_LEN characters and dots. */
  lemma BodyIdempotent(content: string)
    ensures Body(Body(content)) == Body(content)
  {
    BodyShape(content);
    BodyCut(content);
    var b := Body(content);
    FilterKeepsPrintable(b);
    if |b| >= SHOW_LEN {
      BodyCut(b);
      assert b == b[..SHOW_LEN] + b[SHOW_LEN..];
    }
  }
}
